=== FILE: README.md ===
# Criterion Collection rating badges, modelled in Dafny

This project models the core of a browser extension that adds Rotten Tomatoes
and IMDb ratings to the film listings of the Criterion Collection web site.
Its content script (`content.js`) works in five steps:

- It finds the movie elements of the page.
- It reads a title from each element and cleans the title into a cache key.
- It marks each element as processed and appends a "Loading" container to it.
- It looks the title up in OMDb, with a per-page cache.
- It draws a badge: the Rotten Tomatoes score with a fresh or rotten icon, the
  IMDb score, or "No rating available".

The options page (`criterion-rt-extension/options.js`) checks an OMDb API key's
shape, tries the key against OMDb and stores it.

The model is functional. The document is given as the answers its queries
return, with elements as opaque identifiers. The network is an oracle that
hands each request its outcome. Storage is one optional key.

| module | file | models |
|---|---|---|
| `Wrappers` | wrappers.dfy | `null`/`undefined` as `Option`, thrown errors as `Result`, JavaScript string truthiness |
| `Selection` | selection.dfy | the "first match wins" searches (`for … break`, `Array.prototype.find`) |
| `Text` | text.dfy | `trim`, the `\s` class, and global `replace(/x+/g, c)` rewrites |
| `Titles` | titles.dfy | `cleanTitle` |
| `Slugs` | slugs.dfy | `createRottenTomatoesUrl` |
| `Numbers` | numbers.dfy | `parseInt` as `displayRating` uses it |
| `Omdb` | omdb.dfy | `fetchRating`: the cache and the mapping of the OMDb response |
| `Display` | display.dfy | `displayRating` and the container's "Loading" / "Rating unavailable" texts |
| `Scanner` | scanner.dfy | `findMovieElements`, `extractMovieTitle`, `findInsertionPoint` |
| `Enrichment` | enrichment.dfy | `processMovies` and `addRatingToElement`, under any interleaving of passes |
| `Options` | options.dfy | the Save button handler and the loading of the stored key |

### Passes as events

Each loop iteration of `processMovies` runs without interruption up to its
first `await`. That part covers:

- the marker check;
- the title extraction;
- setting `data-rt-processed`;
- appending the "Loading" container;
- `fetchRating`'s cache check.

Passes started by the mutation observer can interleave only at the awaits.
`Enrichment` therefore models any interleaving of passes as a sequence of two
kinds of event:

- `Reach`: an iteration reaches an element.
- `Reply`: a pending lookup completes.

The main theorem, `OneContainerPerMarkedElement`, holds for every such sequence.
It says each element has exactly one rating container when it is marked, and
none otherwise.

### Behaviours worth knowing

- `cleanTitle` removes one year marker and collapses white space; it does not
  cut a title at a separator such as `" - "`.
- The selectors are the three fixed ones of `findMovieElements`; they do not
  depend on the page's host.
- An element is marked processed only when its extracted title is truthy. An
  element with no title, or with one that cleans to `""`, is left unmarked and
  is tried again on the next pass.
- The comment above `createRottenTomatoesUrl` (content.js:176) gives
  `"The Grand Budapest Hotel"` → `the_grand_budapest_hotel`. The code drops a
  leading `the_`, so it gives `grand_budapest_hotel`; the model follows the
  code (`Slugs.GrandBudapestHotel`).

## Model

| member | source | states |
|---|---|---|
| Selection.FirstIndex | content.js:70-77 | the index found is the first whose element satisfies the test; there is none exactly when no element does |
| Selection.FirstSome | content.js:171 | the value found is the first present candidate; there is one exactly when some candidate is present |
| Text.Trim | content.js:109 | the result is the piece of the input left after cutting white space at both ends; neither of its ends is white space; it is empty exactly when the input is all white space |
| Text.ReplaceRuns | content.js:110 | every character of the result is the replacement or an input character outside the class; no two neighbours are both in the class; the first character is kept or replaced; empty exactly when the input is |
| Text.RunsSqueeze | content.js:110 | replacing runs of a class by a character of a second class loses nothing but those characters: deleting the second class from the result equals deleting the first from the input |
| Text.TrimSqueeze | content.js:109 | trimming loses only white space |
| Titles.RemoveFirstYear | content.js:111 | only the leftmost `(dddd)` is cut out, six characters shorter; a string without one is unchanged |
| Titles.CleanTitle | content.js:106-113 | the cleaned title has no white space at either end, every white-space character left in it is a plain space, and it is no longer than the input |
| Titles.CleanTitleLosesOnlyYear | content.js:106-113 | for every title, cleaning loses only white space and the leftmost `(dddd)`: without white space, the cleaned title equals the title with its first marker cut out, and equals the title itself when it has no marker |
| Titles.RemoveFirstYearRuns | content.js:110-111 | collapsing white-space runs before cutting the first marker changes only white space in the outcome: no marker is made or moved |
| Titles.RemoveFirstYearTrim | content.js:109-111 | trimming before cutting the first marker changes only white space in the outcome |
| Titles.CleanTitleSingleSpaced | content.js:106-113 | for every title the cleaned title holds at most one pair of neighbouring white-space characters, and none when the collapsed title holds no year marker |
| Titles.RemoveFirstYearJoins | content.js:110-111 | once runs are collapsed, cutting the first year marker can bring two white-space characters together only across the cut |
| Titles.CleanTitleWithoutYear | content.js:106-113 | when the trimmed and collapsed title holds no year marker, cleaning only collapses white space, loses no other character, and cleaning again changes nothing |
| Titles.CleanTitleTrailingYear | content.js:106-113 | padded plain words followed by white space and a year marker clean to exactly the words |
| Titles.TheThing | content.js:106-113 | `"  The Thing   (1982) "` cleans to `"The Thing"` |
| Titles.CleanTitleMiddleYear | content.js:106-113 | a year marker between two words leaves a double space: `a (dddd) b` cleans to `a  b` |
| Titles.CleanTitleAgain | content.js:106-113 | cleaning `a  b` again gives `a b`, so cleaning is not idempotent |
| Titles.MiddleYearExample | content.js:106-113 | `"a (1982) b"` cleans to `"a  b"`, and that cleans to `"a b"` |
| Titles.CleanTitleYearOnly | content.js:106-113 | a title that is only a year marker and white space cleans to the empty string |
| Slugs.TrimUnderscores | content.js:183 | exactly one underscore is cut from each end that has one (so `"x__"` becomes `"x_"`) and every other character is kept in place; when no two underscores are adjacent, neither end of the result is an underscore |
| Slugs.Lower | content.js:178 | lower-casing keeps the length and maps each character on its own: an ASCII capital to its small letter, anything else to itself |
| Slugs.Kept | content.js:179 | after the special characters are removed only `[a-z0-9]` and white space remain, nothing is added, and a lower-cased title with no special character is kept whole |
| Slugs.Slug | content.js:177-183 | the slug holds only `[a-z0-9_]`, never two underscores in a row, and no underscore at either end |
| Slugs.RottenTomatoesUrl | content.js:174-186 | the address is `https://www.rottentomatoes.com/m/` followed by the slug of the title; the year plays no part |
| Slugs.DropTheIff | content.js:180-181 | after white-space runs become underscores, the string starts with `the_` exactly when the kept characters start with `the` and white space |
| Slugs.DropThe | content.js:181 | one leading `the_` is dropped: the input is `the_` followed by the result when it starts so, and the result is the input otherwise |
| Slugs.SlugLetters | content.js:177-183 | the slug keeps every ASCII letter and digit of the lower-cased title in order, losing only a leading word `the` |
| Slugs.SlugOfWords | content.js:176-183 | for words of letters and digits separated by single spaces, the slug is the lower-cased words joined by `_`, without a leading `the` that has another word after it |
| Slugs.GrandBudapestHotel | content.js:176-183 | `"The Grand Budapest Hotel"` gives `grand_budapest_hotel` |
| Numbers.ParseIntDecimal | content.js:224 | `parseInt` reads back a decimal numeral followed by anything that ends it, such as `%` |
| Numbers.ParseIntNegative | content.js:224 | a minus sign before the numeral negates it |
| Numbers.ParseIntSkipsSpace | content.js:224 | leading white space does not change what `parseInt` reads |
| Numbers.ParseIntNaN | content.js:224 | a string starting with anything but white space, a sign or a digit reads as `NaN` |
| Numbers.ParseInt | content.js:224 | a blank string reads as `NaN`; a number is read only when a digit comes first after the white space, or right after a sign; a negative number only after a minus sign |
| Scanner.FindMovieElements | content.js:58-80 | the result is the whole match list of the first selector that matches anything, never a union; it is empty exactly when no selector matches |
| Scanner.DataTitle | content.js:98-100 | the first truthy one of `data-title`, `data-film-title` and `data-movie-title`, in that order; none exactly when none is truthy |
| Scanner.ExtractMovieTitle | content.js:82-104 | `null` exactly when no source qualifies; the text of `.browse-item-title strong` wins when it is not blank; a found title has no outer white space |
| Scanner.ExtractIsFirstSource | content.js:82-104 | the title is the cleaned value of the first of the five sources that qualifies |
| Scanner.YearOnlyTitle | content.js:86-88 | a title element holding only a year marker gives the empty title |
| Scanner.FindInsertionPoint | content.js:162-172 | the first of `.padding-small`, `.browse-item-title`, `.grid-item-padding` present, else the element itself |
| Omdb.Tomatometer | content.js:205-207 | the value of the first ratings entry from Rotten Tomatoes; none when there is no such entry or no list |
| Omdb.MapResponse | content.js:200-214 | `Response: "False"` throws `Error` or `Movie not found`; otherwise the rating carries the first Rotten Tomatoes value, the IMDb rating unless `N/A`, an IMDb address exactly when `imdbID` is truthy, and an address built from the response's own title |
| Omdb.FetchRating | content.js:188-220 | a cached title is answered with no request; otherwise the outcome is mapped, and only a rating is stored, under the title asked for |
| Omdb.FetchAgainHitsCache | content.js:190-192 | after a rating is stored, asking again sends no request and gives the same rating |
| Omdb.FetchAgainAfterError | content.js:200-202 | an error is not cached: asking again sends a new request |
| Omdb.FetchKeepsEntries | content.js:216-217 | a lookup never removes or changes another cache entry |
| Display.DisplayRating | content.js:222-265 | a Rotten Tomatoes badge exactly when the tomatometer is truthy, showing it with the fresh icon exactly when `parseInt` gives at least 60 and with an IMDb part exactly when the IMDb rating is truthy; else an IMDb-only badge exactly when the IMDb rating is truthy; else no rating |
| Display.Settled | content.js:153-159 | the container shows "Rating unavailable" exactly when the lookup failed, and the badge of the rating otherwise |
| Display.ScoreFreshness | content.js:224-225 | a score `<n>%` gets the fresh icon exactly when `n >= 60` |
| Display.NotANumberIsRotten | content.js:224-225 | a score that is not a number gets the rotten icon |
| Display.IsFresh | content.js:224-225 | a fresh score starts, after white space, with a digit or a sign and a digit, and never with a minus sign |
| Display.ScoredResponseBadge | content.js:188-225 | a response whose first Rotten Tomatoes entry reads `<n>%` is cached and draws that score, fresh exactly when `n >= 60` |
| Display.RejectedResponseUnavailable | content.js:200-201 | an answer of `Response: "False"` shows "Rating unavailable" and leaves the cache as it was |
| Display.TransportFailureUnavailable | content.js:153-159 | a failed request shows "Rating unavailable" and leaves the cache as it was |
| Display.NoScoresNoRating | content.js:262-264 | no Rotten Tomatoes entry and an IMDb rating of `N/A` give "No rating available" |
| Enrichment.Visit | content.js:123-150 | a marked element or one without a truthy title is skipped; otherwise it is marked and exactly one "Loading" container is appended, at its insertion point, whose request is the cached rating when the title is cached and a fresh request otherwise |
| Enrichment.Settle | content.js:152-159 | completing a pending lookup changes only that container's content: a cache answer shows its badge, a request shows its rating's badge or "Rating unavailable" on any error; the cache gains or replaces the entry for that container's title exactly when a request succeeded, and is otherwise unchanged, so errors are never cached; owners, hosts and titles are kept |
| Enrichment.OneContainerPerMarkedElement | content.js:123-150 | under any interleaving of passes, every element has one container if marked and none otherwise |
| Enrichment.RunKeepsInv | content.js:115-160 | every event keeps the invariant: one container per marked element, and every container title and cache key non-empty, with no white space at either end and only plain spaces inside |
| Enrichment.VisitKeepsInv | content.js:123-150 | reaching an element keeps the invariant |
| Enrichment.SettleKeepsInv | content.js:152-159 | completing a lookup keeps the invariant |
| Enrichment.RunOnlyGrows | content.js:123-150 | marks and containers are never removed, and a container never changes owner, host or title |
| Enrichment.VisitThenSettle | content.js:152-155 | reaching an element and settling at once behaves as `fetchRating` followed by `displayRating` |
| Enrichment.ProcessOne | content.js:123-135 | after one iteration the element is marked unless it has no truthy title, and no mark is lost |
| Enrichment.ProcessFrom | content.js:123-135 | a pass keeps every mark and marks only elements it goes over |
| Enrichment.ProcessMovies | content.js:115-121 | a page with no movie elements is left as it is |
| Enrichment.ProcessCovers | content.js:123-135 | after a pass every element it went over is marked or has no truthy title |
| Enrichment.ProcessCoveredIsSkip | content.js:123-135 | a pass over elements that are all marked or untitled changes nothing |
| Enrichment.ProcessMoviesTwice | content.js:115-136 | processing the same page twice is processing it once |
| Enrichment.ProcessKeepsInv | content.js:115-136 | an uninterrupted pass keeps the invariant |
| Options.Blank | criterion-rt-extension/options.js:3-7 | when the page opens the input is empty, the button enabled, no status is shown and no key is being tried |
| Options.Open | criterion-rt-extension/options.js:9-13 | when the storage read answers first, a truthy stored key fills the input; nothing else does |
| Options.Fill | criterion-rt-extension/options.js:9-13 | the storage read's callback puts a truthy key in the input, replacing what was there, and changes nothing else; a falsy one changes nothing |
| Options.LateLoadOverwrites | criterion-rt-extension/options.js:9-16 | the click listener is live before the read answers: a key loaded after typing overwrites the typed text, and typing after the load replaces the key |
| Options.BlankInv | criterion-rt-extension/options.js:3-13 | the page before the storage read answers satisfies the invariant when storage is empty or holds a saved key |
| Options.OpenInv | criterion-rt-extension/options.js:9-13 | a page opened on an empty store or a well-formed stored key satisfies the invariant |
| Options.Click | criterion-rt-extension/options.js:16-33 | a blank key and a key whose trimmed length is not 8 are refused with their messages and no request; otherwise the button is disabled while the trimmed key is tried |
| Options.Reply | criterion-rt-extension/options.js:34-53 | the button is enabled again in every case; the key is stored exactly when a response arrived that is not `Response: "False"` with `Error: "Invalid API key!"` |
| Options.SaveFlow | criterion-rt-extension/options.js:16-53 | a click and its answer store the trimmed input exactly when it has 8 characters and the response does not reject it |
| Options.RunKeepsInv | criterion-rt-extension/options.js:16-53 | over any sequence of storage loads, edits, clicks and answers, the button is disabled exactly while a key is being tried, and only 8-character trimmed keys are ever stored |
| Options.Edit | criterion-rt-extension/options.js:4 | typing changes the input's text and nothing else |
| Options.EditsWhileTrying | criterion-rt-extension/options.js:17-45 | edits while a key is being tried leave the tried key, the store and the button alone, and the answer stores and reports the same as without them |
| Options.ClickEditAnswer | criterion-rt-extension/options.js:17-48 | an accepted answer stores the trimmed key captured at the click, whatever the input holds when the answer arrives |
| Options.InnerSpaceIsTried | criterion-rt-extension/options.js:24-28 | only the length is checked: `"ab cd ef"` is sent for testing |

## Left out

- The mutation observer, the 500 ms debounce, `init` and the page-load bootstrapping are event wiring and timers. The pass is modelled by the events its iterations consist of. The early return of `init` when no key is stored is not modelled.
- `chrome.storage`, `fetch`, `response.json()`, the OMDb query address and `encodeURIComponent` are I/O. A request's outcome is a parameter: a parsed response or a failure. A JSON parse error counts as a failure.
- The DOM, `querySelector`, HTML templates, `innerHTML`, `className` and console logging are left out. Queries are given as their answers. Badges and status lines are datatypes.
- background.js only opens the options page on install and ignores messages. It is not part of this model.
- Slugs.Lower: lowercases ASCII letters only. JavaScript's `toLowerCase` also maps the Kelvin sign to `k` and `İ` to `i` plus a combining dot, so those two characters survive into a slug in the script but not in the model.
- Options.Click: counts Unicode scalar values, while JavaScript's `length` counts UTF-16 code units. A key with characters outside the Basic Multilingual Plane is measured differently.
- Numbers.ParseIntDecimal: reads the digits exactly. `parseInt` rounds very long numerals to a double and gives `-0` for `"-0"`, which makes no difference to the `>= 60` test.
- Omdb.MapResponse: treats every response field as a string or absent. A `Title` of another JSON type is not modelled. A missing `Title` makes the script throw while lower-casing it, which is modelled as the `MissingTitle` error.
- Options.Blank: takes the input to start empty before the storage read answers. The options page's HTML is not part of this model.
- Options.Reply: merges the answer with the `chrome.storage.sync.set` callback that shows the success message and enables the button again. Events between the write and its callback are not modelled.
- Options.RunKeepsInv: assumes storage starts empty or holding a key this page saved. Storage written by other means is outside the model.
- Enrichment: containers removed by the site's own re-rendering are not modelled. Elements are never replaced.

=== FILE: display.dfy ===
/** `displayRating` of content.js, and the badge text `addRatingToElement`
    shows while the rating loads or when it cannot be had.  The badge is
    modelled by what it shows, not by its HTML. */
module Display {
  import opened Wrappers
  import opened Numbers
  import opened Text
  import opened Omdb

  /** The tomato (`percentage >= 60`) or the nauseated face. */
  datatype Icon = Fresh | Rotten

  /** `IMDb: <score>/10`, linked to the IMDb page when there is one. */
  datatype ImdbScore = ImdbScore(score: string, link: Option<string>)

  /** The three badges `displayRating` can draw. */
  datatype Badge =
    | RtBadge(icon: Icon, score: string, rtUrl: string, imdb: Option<ImdbScore>)
    | ImdbBadge(imdbOnly: ImdbScore)
    | NoRating

  /** What a rating container shows: `Loading RT rating...`, `Rating
      unavailable`, or a badge. */
  datatype BadgeContent = Loading | Unavailable | Shown(badge: Badge)

  /** `parseInt(tomatometer) >= 60`; `NaN` compares false. */
  predicate IsFresh(tomatometer: string)
    ensures IsFresh(tomatometer) ==> StartsNumber(tomatometer[LeadingSpace(tomatometer)..])
    ensures IsFresh(tomatometer) ==> tomatometer[LeadingSpace(tomatometer)] != '-'
  {
    match ParseInt(tomatometer)
    case None => false
    case Some(p) => p >= 60
  }

  /** The IMDb part of a badge: its score, linked when `imdbUrl` is truthy. */
  function ImdbPart(rating: Rating): ImdbScore
    requires Truthy(rating.imdbRating)
  {
    ImdbScore(rating.imdbRating.value, if Truthy(rating.imdbUrl) then rating.imdbUrl else None)
  }

  /** `displayRating`: a Rotten Tomatoes badge whenever there is a tomatometer,
      with the IMDb score beside it when there is one; else an IMDb-only badge;
      else "No rating available". */
  function DisplayRating(rating: Rating): (b: Badge)
    ensures b.RtBadge? <==> Truthy(rating.tomatometer)
    ensures b.ImdbBadge? <==> !Truthy(rating.tomatometer) && Truthy(rating.imdbRating)
    ensures b.NoRating? <==> !Truthy(rating.tomatometer) && !Truthy(rating.imdbRating)
    ensures b.RtBadge? ==> b.score == rating.tomatometer.value && b.rtUrl == rating.rtUrl
    ensures b.RtBadge? ==> (b.icon == Fresh <==> IsFresh(rating.tomatometer.value))
    ensures b.RtBadge? ==> (b.imdb.Some? <==> Truthy(rating.imdbRating))
    ensures b.RtBadge? && b.imdb.Some? ==> b.imdb.value == ImdbPart(rating)
    ensures b.ImdbBadge? ==> b.imdbOnly == ImdbPart(rating)
  {
    if Truthy(rating.tomatometer) then
      var t := rating.tomatometer.value;
      RtBadge(if IsFresh(t) then Fresh else Rotten, t, rating.rtUrl,
              if Truthy(rating.imdbRating) then Some(ImdbPart(rating)) else None)
    else if Truthy(rating.imdbRating) then
      ImdbBadge(ImdbPart(rating))
    else
      NoRating
  }

  /** The container's content once `fetchRating` has settled: a badge for a
      rating, "Rating unavailable" for any error it threw. */
  function Settled(result: Result<Rating, FetchError>): (c: BadgeContent)
    ensures c.Unavailable? <==> result.Failure?
    ensures result.Success? ==> c == Shown(DisplayRating(result.value))
  {
    match result
    case Success(rating) => Shown(DisplayRating(rating))
    case Failure(_) => Unavailable
  }

  /** A score written as a decimal numeral and a suffix such as `%` is fresh
      exactly when the number is at least 60. */
  lemma ScoreFreshness(n: nat, suffix: string)
    requires EndsNumeral(n, suffix)
    ensures IsFresh(DecimalString(n) + suffix) <==> n >= 60
  {
    ParseIntDecimal(n, suffix);
  }

  /** A score that does not read as a number draws the rotten icon. */
  lemma NotANumberIsRotten(t: string)
    requires t != [] && !IsSpace(t[0]) && !IsDigit(t[0]) && t[0] != '-' && t[0] != '+'
    ensures !IsFresh(t)
  {
    ParseIntNaN(t);
  }

  /** A response whose first Rotten Tomatoes entry reads `<n>%`, for a title
      not yet cached, draws a Rotten Tomatoes badge with that score, fresh
      exactly when `n >= 60`, and caches the rating. */
  lemma ScoredResponseBadge(cache: map<string, Rating>, title: string, d: ApiResponse, n: nat)
    requires title !in cache
    requires d.response != Some("False") && d.title.Some?
    requires Tomatometer(d.ratings) == Some(DecimalString(n) + "%")
    ensures var look := FetchRating(cache, title, Received(d));
            && look.fetched && title in look.cache
            && Settled(look.result).Shown?
            && Settled(look.result).badge.RtBadge?
            && Settled(look.result).badge.score == DecimalString(n) + "%"
            && (Settled(look.result).badge.icon == Fresh <==> n >= 60)
  {
    ScoreFreshness(n, "%");
  }

  /** An answer of `Response: "False"` shows "Rating unavailable" and leaves the
      cache as it was. */
  lemma RejectedResponseUnavailable(cache: map<string, Rating>, title: string, d: ApiResponse)
    requires title !in cache && d.response == Some("False")
    ensures Settled(FetchRating(cache, title, Received(d)).result) == Unavailable
    ensures FetchRating(cache, title, Received(d)).cache == cache
  {
  }

  /** A failed request shows "Rating unavailable" and leaves the cache as it was. */
  lemma TransportFailureUnavailable(cache: map<string, Rating>, title: string)
    requires title !in cache
    ensures Settled(FetchRating(cache, title, TransportFailure).result) == Unavailable
    ensures FetchRating(cache, title, TransportFailure).cache == cache
  {
  }

  /** With no Rotten Tomatoes entry and an IMDb rating of `N/A`, the badge says
      there is no rating. */
  lemma NoScoresNoRating(d: ApiResponse)
    requires d.response != Some("False") && d.title.Some?
    requires d.ratings.None? || forall i :: 0 <= i < |d.ratings.value| ==> !IsRottenTomatoes(d.ratings.value[i])
    requires d.imdbRating == Some("N/A")
    ensures Settled(MapResponse(d)) == Shown(NoRating)
  {
  }
}

=== FILE: enrichment.dfy ===
/** `processMovies` and `addRatingToElement` of content.js: the pass that
    marks movie elements with `data-rt-processed` and appends one rating
    container to each.

    Everything up to the first `await` of one loop iteration runs without
    interruption: the marker check, the title extraction, setting the marker,
    appending the "Loading" container and `fetchRating`'s cache check.  Passes
    started by the mutation observer may interleave with each other only at the
    awaits, so the model is a sequence of two kinds of event: an iteration
    reaching an element (`Visit`) and a pending lookup completing (`Settle`).
    Any interleaving of passes is some sequence of these events. */
module Enrichment {
  import opened Wrappers
  import opened Text
  import opened Omdb
  import opened Display
  import opened Scanner
  import opened Titles

  /** How `fetchRating` began for a container: answered from the cache, or with
      a request in flight. */
  datatype Request = FromCache(rating: Rating) | InFlight

  /** A rating container: the movie element it belongs to, the element it was
      appended to, the title it was fetched for, and what it shows. */
  datatype Container = Container(owner: ElementId, host: ElementId, title: string, request: Request, content: BadgeContent)

  /** The script's state: the elements marked `data-rt-processed`, the
      containers appended so far in order, and the rating cache. */
  datatype State = State(marked: set<ElementId>, containers: seq<Container>, cache: map<string, Rating>)

  /** Freshly loaded: nothing marked, nothing appended, nothing cached. */
  const Initial := State({}, [], map[])

  /** The title `extractMovieTitle` finds for an element of the page. */
  function TitleAt(page: Page, id: ElementId): Option<string> {
    ExtractMovieTitle(ElementOf(page, id))
  }

  /** The synchronous part of one iteration of `processMovies` for element `id`:
      a marked element is skipped, and so is one without a truthy title;
      otherwise the element is marked and a "Loading" container is appended
      at its insertion point, answered from the cache when the title is there. */
  function Visit(s: State, page: Page, id: ElementId): (t: State)
    ensures id in s.marked || !Truthy(TitleAt(page, id)) ==> t == s
    ensures id !in s.marked && Truthy(TitleAt(page, id)) ==>
              && t.marked == s.marked + {id}
              && t.cache == s.cache
              && |t.containers| == |s.containers| + 1
              && t.containers[..|s.containers|] == s.containers
              && t.containers[|s.containers|].owner == id
              && t.containers[|s.containers|].host == FindInsertionPoint(ElementOf(page, id), id)
              && t.containers[|s.containers|].title == TitleAt(page, id).value
              && t.containers[|s.containers|].content == Loading
              && t.containers[|s.containers|].request
                   == (if TitleAt(page, id).value in s.cache
                       then FromCache(s.cache[TitleAt(page, id).value]) else InFlight)
  {
    if id in s.marked || !Truthy(TitleAt(page, id)) then s
    else
      var e := ElementOf(page, id);
      var title := TitleAt(page, id).value;
      var request := if title in s.cache then FromCache(s.cache[title]) else InFlight;
      var c := Container(id, FindInsertionPoint(e, id), title, request, Loading);
      assert (s.containers + [c])[..|s.containers|] == s.containers;
      State(s.marked + {id}, s.containers + [c], s.cache)
  }

  /** The lookup of container `k` completing: a cached rating is drawn; a
      request's outcome is drawn or shown as "Rating unavailable", and a rating
      is stored in the cache under the container's title, replacing whatever
      another pass stored there meanwhile.  A container that has already
      settled, or does not exist, is left alone. */
  function Settle(s: State, k: nat, answer: FetchOutcome): (t: State)
    ensures t.marked == s.marked && |t.containers| == |s.containers|
    ensures forall j :: 0 <= j < |s.containers| ==>
              && t.containers[j].owner == s.containers[j].owner
              && t.containers[j].host == s.containers[j].host
              && t.containers[j].title == s.containers[j].title
    ensures forall j :: 0 <= j < |s.containers| && j != k ==> t.containers[j] == s.containers[j]
    ensures k < |s.containers| && s.containers[k].content.Loading? ==> !t.containers[k].content.Loading?
    ensures k >= |s.containers| || !s.containers[k].content.Loading? ==> t == s
    ensures forall title :: title in t.cache ==>
              title in s.cache || (k < |s.containers| && title == s.containers[k].title)
    ensures k < |s.containers| && s.containers[k].content.Loading? ==>
              t.containers[k].content == match s.containers[k].request
                                         case FromCache(rating) => Shown(DisplayRating(rating))
                                         case InFlight => Settled(Answer(answer))
    ensures k < |s.containers| && s.containers[k].content.Loading?
            && s.containers[k].request.InFlight? && Answer(answer).Success?
            ==> t.cache == s.cache[s.containers[k].title := Answer(answer).value]
    ensures !(k < |s.containers| && s.containers[k].content.Loading?
              && s.containers[k].request.InFlight? && Answer(answer).Success?)
            ==> t.cache == s.cache
  {
    if k >= |s.containers| || !s.containers[k].content.Loading? then s
    else
      var c := s.containers[k];
      match c.request
      case FromCache(rating) =>
        s.(containers := s.containers[k := c.(content := Shown(DisplayRating(rating)))])
      case InFlight =>
        var result := Answer(answer);
        var cache := if result.Success? then s.cache[c.title := result.value] else s.cache;
        s.(containers := s.containers[k := c.(content := Settled(result))], cache := cache)
  }

  /** One event of an interleaving of passes. */
  datatype Event = Reach(page: Page, id: ElementId) | Reply(container: nat, answer: FetchOutcome)

  function Step(s: State, e: Event): State {
    match e
    case Reach(page, id) => Visit(s, page, id)
    case Reply(k, answer) => Settle(s, k, answer)
  }

  /** The state after a sequence of events. */
  function Run(s: State, events: seq<Event>): State
    decreases |events|
  {
    if events == [] then s else Run(Step(s, events[0]), events[1..])
  }

  /** The number of containers belonging to element `id`. */
  function Count(cs: seq<Container>, id: ElementId): nat {
    if cs == [] then 0
    else Count(cs[..|cs| - 1], id) + (if cs[|cs| - 1].owner == id then 1 else 0)
  }

  lemma CountAppend(cs: seq<Container>, c: Container, id: ElementId)
    ensures Count(cs + [c], id) == Count(cs, id) + (if c.owner == id then 1 else 0)
  {
    assert (cs + [c])[..|cs|] == cs;
  }

  /** Counting looks only at owners. */
  lemma {:induction false} CountSameOwners(cs: seq<Container>, ds: seq<Container>, id: ElementId)
    requires |cs| == |ds|
    requires forall j :: 0 <= j < |cs| ==> cs[j].owner == ds[j].owner
    ensures Count(cs, id) == Count(ds, id)
    decreases |cs|
  {
    if cs != [] {
      var n := |cs| - 1;
      CountSameOwners(cs[..n], ds[..n], id);
    }
  }

  /** The invariant every reachable state keeps: each element has one
      container exactly when it is marked, and every title that keys a
      container or the cache is a cleaned title: non-empty, with no white
      space at either end and only plain spaces inside. */
  ghost predicate Inv(s: State) {
    && (forall id :: Count(s.containers, id) == (if id in s.marked then 1 else 0))
    && (forall k :: 0 <= k < |s.containers| ==> CleanKey(s.containers[k].title))
    && (forall title :: title in s.cache ==> CleanKey(title))
  }

  /** A title as `cleanTitle` leaves it, and truthy. */
  ghost predicate CleanKey(title: string) {
    title != [] && NoOuterSpace(title) && OnlyBlanks(title)
  }

  lemma InitialInv()
    ensures Inv(Initial)
  {
  }

  lemma VisitKeepsInv(s: State, page: Page, id: ElementId)
    requires Inv(s)
    ensures Inv(Visit(s, page, id))
  {
    var t := Visit(s, page, id);
    if t != s {
      var c := t.containers[|s.containers|];
      assert t.containers == s.containers + [c];
      assert CleanKey(c.title) by {
        assert c.title == ExtractMovieTitle(ElementOf(page, id)).value;
      }
      AppendKeepsInv(s, id, c);
    }
  }

  /** Marking a new element and appending one container for it, under a
      cleaned title, keeps the invariant. */
  lemma AppendKeepsInv(s: State, id: ElementId, c: Container)
    requires Inv(s) && id !in s.marked && c.owner == id && CleanKey(c.title)
    ensures Inv(State(s.marked + {id}, s.containers + [c], s.cache))
  {
    var t := State(s.marked + {id}, s.containers + [c], s.cache);
    forall other
      ensures Count(t.containers, other) == (if other in t.marked then 1 else 0)
    {
      CountAppend(s.containers, c, other);
    }
    forall k | 0 <= k < |t.containers| ensures CleanKey(t.containers[k].title) {
      if k < |s.containers| {
        assert t.containers[k] == s.containers[k];
      }
    }
  }

  lemma SettleKeepsInv(s: State, k: nat, answer: FetchOutcome)
    requires Inv(s)
    ensures Inv(Settle(s, k, answer))
  {
    var t := Settle(s, k, answer);
    forall id
      ensures Count(t.containers, id) == Count(s.containers, id)
    {
      CountSameOwners(t.containers, s.containers, id);
    }
  }

  lemma {:induction false} RunKeepsInv(s: State, events: seq<Event>)
    requires Inv(s)
    ensures Inv(Run(s, events))
    decreases |events|
  {
    if events != [] {
      var t := Step(s, events[0]);
      StepKeepsInv(s, events[0]);
      RunKeepsInv(t, events[1..]);
    }
  }

  lemma StepKeepsInv(s: State, e: Event)
    requires Inv(s)
    ensures Inv(Step(s, e))
  {
    match e
    case Reach(page, id) => VisitKeepsInv(s, page, id);
    case Reply(k, answer) => SettleKeepsInv(s, k, answer);
  }

  /** However the passes interleave, every element ends up with one rating
      container if it is marked and none otherwise: never two badges. */
  lemma OneContainerPerMarkedElement(events: seq<Event>, id: ElementId)
    ensures var t := Run(Initial, events);
            Count(t.containers, id) == (if id in t.marked then 1 else 0)
  {
    InitialInv();
    RunKeepsInv(Initial, events);
  }

  /** Marks and containers are never taken away, and a container never changes
      owner, host or title. */
  lemma {:induction false} RunOnlyGrows(s: State, events: seq<Event>)
    ensures var t := Run(s, events);
            && s.marked <= t.marked
            && |s.containers| <= |t.containers|
            && forall j :: 0 <= j < |s.containers| ==>
                 && t.containers[j].owner == s.containers[j].owner
                 && t.containers[j].host == s.containers[j].host
                 && t.containers[j].title == s.containers[j].title
    decreases |events|
  {
    if events != [] {
      var u := Step(s, events[0]);
      assert s.marked <= u.marked && |s.containers| <= |u.containers|;
      assert forall j :: 0 <= j < |s.containers| ==> u.containers[j].owner == s.containers[j].owner;
      RunOnlyGrows(u, events[1..]);
    }
  }

  /** Reaching an element and settling its lookup straight away, as one
      uninterrupted pass does, behaves as `fetchRating` followed by
      `displayRating`: the container shows the lookup's outcome and the cache
      is the one `fetchRating` leaves. */
  lemma VisitThenSettle(s: State, page: Page, id: ElementId, answer: FetchOutcome)
    requires id !in s.marked && Truthy(TitleAt(page, id))
    ensures var t := Settle(Visit(s, page, id), |s.containers|, answer);
            var look := FetchRating(s.cache, TitleAt(page, id).value, answer);
            && t.containers[|s.containers|].content == Settled(look.result)
            && t.cache == look.cache
  {
  }

  /** One iteration of an uninterrupted pass: the element is reached and, when
      a container was appended, its lookup is settled at once with the answer
      `server` gives for its title.  Afterwards the element is marked unless it
      has no truthy title, and no mark has gone. */
  function ProcessOne(s: State, page: Page, id: ElementId, server: string -> FetchOutcome): (t: State)
    ensures s.marked <= t.marked <= s.marked + {id}
    ensures id in t.marked || !Truthy(TitleAt(page, id))
  {
    var v := Visit(s, page, id);
    if v == s then s else Settle(v, |s.containers|, server(v.containers[|s.containers|].title))
  }

  /** The rest of one uninterrupted `processMovies` pass over `ids`: it marks
      only elements it goes over, and keeps every mark. */
  function ProcessFrom(s: State, page: Page, ids: seq<ElementId>, server: string -> FetchOutcome): (t: State)
    ensures s.marked <= t.marked
    ensures forall id :: id in t.marked ==> id in s.marked || id in ids
    decreases |ids|
  {
    if ids == [] then s
    else ProcessFrom(ProcessOne(s, page, ids[0], server), page, ids[1..], server)
  }

  /** `processMovies` run to completion with no other pass interleaved; a page
      with no movie elements is left as it is. */
  function ProcessMovies(s: State, page: Page, server: string -> FetchOutcome): (t: State)
    ensures FindMovieElements(page) == [] ==> t == s
  {
    ProcessFrom(s, page, FindMovieElements(page), server)
  }

  /** Every element of `ids` is marked or has no truthy title. */
  predicate Covered(s: State, page: Page, ids: seq<ElementId>) {
    forall i :: 0 <= i < |ids| ==> ids[i] in s.marked || !Truthy(TitleAt(page, ids[i]))
  }

  /** After a pass, every element it went over is marked or has no truthy title,
      and marks are never removed. */
  lemma {:induction false} ProcessCovers(s: State, page: Page, ids: seq<ElementId>, server: string -> FetchOutcome)
    ensures s.marked <= ProcessFrom(s, page, ids, server).marked
    ensures Covered(ProcessFrom(s, page, ids, server), page, ids)
    decreases |ids|
  {
    if ids != [] {
      var t := ProcessOne(s, page, ids[0], server);
      ProcessCovers(t, page, ids[1..], server);
      var u := ProcessFrom(t, page, ids[1..], server);
      forall i | 0 <= i < |ids|
        ensures ids[i] in u.marked || !Truthy(TitleAt(page, ids[i]))
      {
        if i > 0 {
          assert ids[i] == ids[1..][i - 1];
        }
      }
    }
  }

  /** A pass over elements that are all marked or untitled changes nothing. */
  lemma {:induction false} ProcessCoveredIsSkip(s: State, page: Page, ids: seq<ElementId>, server: string -> FetchOutcome)
    requires Covered(s, page, ids)
    ensures ProcessFrom(s, page, ids, server) == s
    decreases |ids|
  {
    if ids != [] {
      assert Visit(s, page, ids[0]) == s;
      assert Covered(s, page, ids[1..]) by {
        forall i | 0 <= i < |ids[1..]|
          ensures ids[1..][i] in s.marked || !Truthy(TitleAt(page, ids[1..][i]))
        {
          assert ids[1..][i] == ids[i + 1];
        }
      }
      ProcessCoveredIsSkip(s, page, ids[1..], server);
    }
  }

  /** Processing the same page twice is processing it once: the second pass
      finds every element marked or untitled and adds no badge. */
  lemma ProcessMoviesTwice(s: State, page: Page, server: string -> FetchOutcome)
    ensures ProcessMovies(ProcessMovies(s, page, server), page, server) == ProcessMovies(s, page, server)
  {
    var ids := FindMovieElements(page);
    ProcessCovers(s, page, ids, server);
    ProcessCoveredIsSkip(ProcessMovies(s, page, server), page, ids, server);
  }

  /** An uninterrupted pass keeps the invariant. */
  lemma {:induction false} ProcessKeepsInv(s: State, page: Page, ids: seq<ElementId>, server: string -> FetchOutcome)
    requires Inv(s)
    ensures Inv(ProcessFrom(s, page, ids, server))
    decreases |ids|
  {
    if ids != [] {
      var v := Visit(s, page, ids[0]);
      VisitKeepsInv(s, page, ids[0]);
      if v != s {
        SettleKeepsInv(v, |s.containers|, server(v.containers[|s.containers|].title));
      }
      ProcessKeepsInv(ProcessOne(s, page, ids[0], server), page, ids[1..], server);
    }
  }
}

=== FILE: numbers.dfy ===
/** JavaScript's `parseInt(string)` with no radix argument, as `displayRating`
    uses it on the Rotten Tomatoes score (`"87%"`), and the decimal numerals it
    reads back. */
module Numbers {
  import opened Wrappers
  import opened Text

  predicate IsHexDigit(c: char) {
    IsDigit(c) || 'a' <= c <= 'f' || 'A' <= c <= 'F'
  }

  /** `c` is a digit of radix 10 or 16. */
  predicate IsRadixDigit(c: char, hex: bool) {
    if hex then IsHexDigit(c) else IsDigit(c)
  }

  function DigitValue(c: char): (v: nat)
    ensures IsDigit(c) ==> v == c as int - '0' as int && v < 10
    ensures IsHexDigit(c) ==> v < 16
  {
    if IsDigit(c) then c as int - '0' as int
    else if 'a' <= c <= 'f' then c as int - 'a' as int + 10
    else if 'A' <= c <= 'F' then c as int - 'A' as int + 10
    else 0
  }

  /** The number of leading digits of `s`. */
  function DigitPrefix(s: string, hex: bool): (n: nat)
    ensures n <= |s|
    ensures forall k :: 0 <= k < n ==> IsRadixDigit(s[k], hex)
    ensures n < |s| ==> !IsRadixDigit(s[n], hex)
  {
    if s == [] || !IsRadixDigit(s[0], hex) then 0 else 1 + DigitPrefix(s[1..], hex)
  }

  /** The value of a digit string, most significant digit first. */
  function DigitsValue(ds: string, hex: bool): nat {
    if ds == [] then 0
    else DigitsValue(ds[..|ds| - 1], hex) * (if hex then 16 else 10) + DigitValue(ds[|ds| - 1])
  }

  /** The string after an optional leading sign. */
  function Unsigned(t: string): string {
    if t != [] && (t[0] == '-' || t[0] == '+') then t[1..] else t
  }

  predicate HasHexPrefix(u: string) {
    |u| >= 2 && u[0] == '0' && (u[1] == 'x' || u[1] == 'X')
  }

  /** The value of the digits at the start of an unsigned numeral, read in base
      16 after a `0x` prefix and in base 10 otherwise; `None` when there are none. */
  function Magnitude(u: string): Option<nat> {
    var hex := HasHexPrefix(u);
    var v := if hex then u[2..] else u;
    var n := DigitPrefix(v, hex);
    if n == 0 then None else Some(DigitsValue(v[..n], hex))
  }

  /** `parseInt(s)`: skip leading white space, read an optional sign and an
      optional `0x`/`0X` prefix, then as many digits as there are.  `None` is
      `NaN`, the result when no digit follows. */
  function ParseInt(s: string): (r: Option<int>)
    ensures LeadingSpace(s) == |s| ==> r.None?
    ensures r.Some? ==> StartsNumber(s[LeadingSpace(s)..])
    ensures r.Some? && r.value < 0 ==> s[LeadingSpace(s)] == '-'
  {
    ParseSigned(s[LeadingSpace(s)..])
  }

  /** A digit, possibly after one sign: how every string `parseInt` reads a
      number from starts once its white space is skipped. */
  predicate StartsNumber(t: string) {
    || (t != [] && IsDigit(t[0]))
    || (|t| >= 2 && (t[0] == '-' || t[0] == '+') && IsDigit(t[1]))
  }

  /** `parseInt` once the leading white space is gone. */
  function ParseSigned(t: string): (r: Option<int>)
    ensures r.Some? ==> StartsNumber(t)
    ensures r.Some? && r.value < 0 ==> t[0] == '-'
  {
    match Magnitude(Unsigned(t))
    case None => None
    case Some(m) => Some(if t[0] == '-' then -(m as int) else m as int)
  }

  function DigitChar(d: nat): (c: char)
    requires d < 10
    ensures IsDigit(c) && DigitValue(c) == d
  {
    ('0' as int + d) as char
  }

  /** The decimal numeral of `n`, without leading zeros. */
  function DecimalString(n: nat): (r: string)
    ensures r != [] && forall k :: 0 <= k < |r| ==> IsDigit(r[k])
    ensures r[0] == '0' ==> n == 0
    decreases n
  {
    if n < 10 then [DigitChar(n)]
    else DecimalString(n / 10) + [DigitChar(n % 10)]
  }

  /** A decimal numeral reads back as the number it was written from. */
  lemma {:induction false} DecimalStringValue(n: nat)
    ensures DigitsValue(DecimalString(n), false) == n
    decreases n
  {
    var d := DecimalString(n);
    if n >= 10 {
      DecimalStringValue(n / 10);
      assert d[..|d| - 1] == DecimalString(n / 10);
    }
  }

  /** The digits end where the first non-digit begins. */
  lemma {:induction false} DigitPrefixAppend(ds: string, suffix: string, hex: bool)
    requires forall k :: 0 <= k < |ds| ==> IsRadixDigit(ds[k], hex)
    requires suffix == [] || !IsRadixDigit(suffix[0], hex)
    ensures DigitPrefix(ds + suffix, hex) == |ds|
    decreases |ds|
  {
    if ds != [] {
      assert (ds + suffix)[1..] == ds[1..] + suffix;
      DigitPrefixAppend(ds[1..], suffix, hex);
    } else {
      assert ds + suffix == suffix;
    }
  }

  /** A suffix that cannot continue the numeral: not a digit, and not the `x`
      of a hexadecimal prefix after a lone zero. */
  predicate EndsNumeral(n: nat, suffix: string) {
    suffix == [] || (!IsDigit(suffix[0]) && (n == 0 ==> suffix[0] != 'x' && suffix[0] != 'X'))
  }

  /** The unsigned reading of a decimal numeral followed by anything that ends it. */
  lemma MagnitudeDecimal(n: nat, suffix: string)
    requires EndsNumeral(n, suffix)
    ensures Magnitude(DecimalString(n) + suffix) == Some(n)
  {
    var d := DecimalString(n);
    var s := d + suffix;
    assert s[0] == d[0];
    assert |s| >= 2 && s[0] == '0' ==> s[1] == suffix[0];
    assert !HasHexPrefix(s);
    DigitPrefixAppend(d, suffix, false);
    assert s[..|d|] == d;
    DecimalStringValue(n);
  }

  /** `parseInt` reads back a decimal numeral followed by anything that ends it,
      such as the `%` of a Rotten Tomatoes score. */
  lemma ParseIntDecimal(n: nat, suffix: string)
    requires EndsNumeral(n, suffix)
    ensures ParseInt(DecimalString(n) + suffix) == Some(n)
  {
    var s := DecimalString(n) + suffix;
    assert s[0] == DecimalString(n)[0];
    assert LeadingSpace(s) == 0 && s[0..] == s;
    MagnitudeDecimal(n, suffix);
  }

  /** A minus sign before the numeral negates it. */
  lemma ParseIntNegative(n: nat, suffix: string)
    requires EndsNumeral(n, suffix)
    ensures ParseInt("-" + DecimalString(n) + suffix) == Some(-(n as int))
  {
    var t := DecimalString(n) + suffix;
    var s := "-" + DecimalString(n) + suffix;
    assert s == ['-'] + t && s[0] == '-';
    assert LeadingSpace(s) == 0 && s[0..] == s;
    assert Unsigned(s) == t;
    MagnitudeDecimal(n, suffix);
  }

  lemma ParseIntAfterSpace(s: string, t: string)
    requires s[LeadingSpace(s)..] == t
    ensures ParseInt(s) == ParseSigned(t)
  {
  }

  lemma SuffixAfterSpace(ws: string, s: string, n: nat)
    requires n <= |s|
    ensures (ws + s)[|ws| + n..] == s[n..]
  {
  }

  /** Leading white space is skipped. */
  lemma ParseIntSkipsSpace(ws: string, s: string)
    requires AllSpace(ws)
    ensures ParseInt(ws + s) == ParseInt(s)
  {
    var t := s[LeadingSpace(s)..];
    LeadingSpaceAppend(ws, s);
    SuffixAfterSpace(ws, s, LeadingSpace(s));
    ParseIntAfterSpace(ws + s, t);
    ParseIntAfterSpace(s, t);
  }

  /** A string that starts with something other than white space, a sign or a
      digit reads as `NaN`: `"N/A"`, for one. */
  lemma ParseIntNaN(s: string)
    requires s != [] && !IsSpace(s[0]) && !IsDigit(s[0]) && s[0] != '-' && s[0] != '+'
    ensures ParseInt(s) == None
  {
    assert LeadingSpace(s) == 0 && s[0..] == s;
    assert Unsigned(s) == s && !HasHexPrefix(s);
  }
}

=== FILE: omdb.dfy ===
/** `fetchRating` of content.js: the OMDb lookup, its response mapping and the
    per-page cache of ratings keyed by the cleaned title.  The network is an
    oracle: each lookup that misses the cache is handed the outcome of its
    request. */
module Omdb {
  import opened Wrappers
  import opened Selection
  import opened Slugs

  const RottenTomatoesSource := "Rotten Tomatoes"
  const ImdbBase := "https://www.imdb.com/title/"
  const NotFound := "Movie not found"

  /** One element of the response's `Ratings` array. */
  datatype RatingEntry = RatingEntry(source: Option<string>, value: Option<string>)

  /** The fields of the parsed OMDb response the script reads; a missing field
      is `None`. */
  datatype ApiResponse = ApiResponse(
    response: Option<string>,
    error: Option<string>,
    ratings: Option<seq<RatingEntry>>,
    imdbRating: Option<string>,
    imdbId: Option<string>,
    year: Option<string>,
    title: Option<string>)

  /** The rating object `fetchRating` builds and caches. */
  datatype Rating = Rating(
    tomatometer: Option<string>,
    imdbRating: Option<string>,
    imdbId: Option<string>,
    year: Option<string>,
    title: string,
    rtUrl: string,
    imdbUrl: Option<string>)

  /** Why `fetchRating` threw: the API answered `Response: "False"`, the answer
      had no `Title` (so building the Rotten Tomatoes address failed), or the
      request or its JSON parsing failed. */
  datatype FetchError = ApiError(message: string) | MissingTitle | TransportError

  /** What the network gave back for one request. */
  datatype FetchOutcome = Received(data: ApiResponse) | TransportFailure

  predicate IsRottenTomatoes(e: RatingEntry) {
    e.source == Some(RottenTomatoesSource)
  }

  /** `data.Ratings?.find(r => r.Source === 'Rotten Tomatoes')`, then its
      `Value`: the first Rotten Tomatoes entry decides, later ones are ignored. */
  function Tomatometer(ratings: Option<seq<RatingEntry>>): (v: Option<string>)
    ensures ratings.None? ==> v.None?
    ensures ratings.Some? && (forall i :: 0 <= i < |ratings.value| ==> !IsRottenTomatoes(ratings.value[i]))
            ==> v.None?
    ensures ratings.Some? ==>
              forall i :: (0 <= i < |ratings.value| && IsRottenTomatoes(ratings.value[i])
                           && forall j :: 0 <= j < i ==> !IsRottenTomatoes(ratings.value[j]))
                          ==> v == ratings.value[i].value
  {
    match ratings
    case None => None
    case Some(rs) =>
      match FirstIndex(rs, IsRottenTomatoes)
      case None => None
      case Some(i) => rs[i].value
  }

  /** The rating object built from a response, or the error thrown while
      building it. */
  function MapResponse(data: ApiResponse): (r: Result<Rating, FetchError>)
    ensures data.response == Some("False")
            ==> r == Failure(ApiError(if Truthy(data.error) then data.error.value else NotFound))
    ensures r.Success? <==> data.response != Some("False") && data.title.Some?
    ensures data.response != Some("False") && data.title.None? ==> r == Failure(MissingTitle)
    ensures r.Success? ==> r.value.title == data.title.value
    ensures r.Success? ==> r.value.rtUrl == RottenTomatoesUrl(data.title.value, data.year)
    ensures r.Success? ==> r.value.year == data.year
    ensures r.Success? ==> r.value.tomatometer == Tomatometer(data.ratings)
    ensures r.Success? ==> (r.value.imdbRating.None? <==> data.imdbRating.None? || data.imdbRating == Some("N/A"))
    ensures r.Success? && r.value.imdbRating.Some? ==> r.value.imdbRating == data.imdbRating
    ensures r.Success? ==> (r.value.imdbUrl.Some? <==> Truthy(data.imdbId))
    ensures r.Success? && r.value.imdbUrl.Some? ==> r.value.imdbUrl.value == ImdbBase + data.imdbId.value + "/"
    ensures r.Success? ==> r.value.imdbId == (if Truthy(data.imdbId) then data.imdbId else None)
  {
    if data.response == Some("False") then
      Failure(ApiError(if Truthy(data.error) then data.error.value else NotFound))
    else if data.title.None? then
      Failure(MissingTitle)
    else
      var title := data.title.value;
      Success(Rating(
        Tomatometer(data.ratings),
        if data.imdbRating == Some("N/A") then None else data.imdbRating,
        if Truthy(data.imdbId) then data.imdbId else None,
        data.year,
        title,
        RottenTomatoesUrl(title, data.year),
        if Truthy(data.imdbId) then Some(ImdbBase + data.imdbId.value + "/") else None))
  }

  /** What a request that went out yields: the rating built from the response,
      or the error thrown on the way. */
  function Answer(answer: FetchOutcome): Result<Rating, FetchError> {
    match answer
    case TransportFailure => Failure(TransportError)
    case Received(d) => MapResponse(d)
  }

  /** The result of one `fetchRating` call: the rating or the error, the cache
      after the call, and whether a request went out. */
  datatype Lookup = Lookup(result: Result<Rating, FetchError>, cache: map<string, Rating>, fetched: bool)

  /** `fetchRating(title)`: a cached title is answered from the cache with no
      request; otherwise the request's outcome is mapped, and only a rating is
      stored, under the title that was asked for. */
  function FetchRating(cache: map<string, Rating>, title: string, answer: FetchOutcome): (r: Lookup)
    ensures title in cache ==> r == Lookup(Success(cache[title]), cache, false)
    ensures title !in cache ==> r.fetched
    ensures title !in cache && answer.Received? ==> r.result == MapResponse(answer.data)
    ensures title !in cache && answer.TransportFailure? ==> r.result == Failure(TransportError)
    ensures r.result.Failure? ==> r.cache == cache
    ensures r.result.Success? ==> r.cache == cache[title := r.result.value]
  {
    if title in cache then Lookup(Success(cache[title]), cache, false)
    else
      var result := Answer(answer);
      match result
      case Success(rating) => Lookup(result, cache[title := rating], true)
      case Failure(_) => Lookup(result, cache, true)
  }

  /** Once a title has been rated, asking again sends no request and gives the
      same rating, whatever the network would have answered. */
  lemma FetchAgainHitsCache(cache: map<string, Rating>, title: string, first: FetchOutcome, second: FetchOutcome)
    requires FetchRating(cache, title, first).result.Success?
    ensures var again := FetchRating(FetchRating(cache, title, first).cache, title, second);
            !again.fetched && again.result == FetchRating(cache, title, first).result
            && again.cache == FetchRating(cache, title, first).cache
  {
  }

  /** A failed lookup leaves nothing behind: asking again sends a new request. */
  lemma FetchAgainAfterError(cache: map<string, Rating>, title: string, first: FetchOutcome, second: FetchOutcome)
    requires title !in cache
    requires FetchRating(cache, title, first).result.Failure?
    ensures FetchRating(FetchRating(cache, title, first).cache, title, second).fetched
  {
  }

  /** The cache only grows, and an entry once stored never changes. */
  lemma FetchKeepsEntries(cache: map<string, Rating>, title: string, answer: FetchOutcome)
    ensures forall t :: t in cache ==>
              (t in FetchRating(cache, title, answer).cache && FetchRating(cache, title, answer).cache[t] == cache[t])
  {
  }
}

=== FILE: options.dfy ===
/** The options page of the extension (criterion-rt-extension/options.js):
    the stored key is loaded into the input, and the Save button checks the
    key's shape, tries it against OMDb and stores it unless OMDb rejects it.
    Storage is modelled as one optional key; the test request is an oracle. */
module Options {
  import opened Wrappers
  import opened Text
  import opened Omdb

  const EmptyKeyMessage := "Please enter an API key"
  const KeyFormatMessage := "Invalid API key format. OMDB API keys are 8 characters long."
  const ValidatingMessage := "Validating API key..."
  const RejectedKeyMessage := "Invalid API key. Please check and try again."
  const SavedMessage := "Settings saved successfully! Refresh any Criterion Collection pages to see ratings."
  const NetworkMessage := "Error validating API key. Please check your internet connection."

  /** The length an OMDb key must have. */
  const KeyLength := 8

  /** The error OMDb answers a bad key with. */
  const InvalidKeyError := "Invalid API key!"

  /** The status line's class: `error`, none, or `success`. */
  datatype Kind = ErrorClass | NoClass | SuccessClass

  datatype Status = Status(message: string, kind: Kind)

  /** The page: the input's text, whether Save is disabled, the status shown,
      the key in storage, and the key being tried while a test request is out. */
  datatype OptionsPage = OptionsPage(
    input: string,
    disabled: bool,
    status: Option<Status>,
    stored: Option<string>,
    trying: Option<string>)

  /** A key the handler would send for testing: non-empty, trimmed, eight characters. */
  predicate WellFormedKey(key: string) {
    |key| == KeyLength && NoOuterSpace(key)
  }

  /** The page as `DOMContentLoaded` leaves it: an empty input, Save enabled,
      no status, and the read of the stored key still pending. */
  function Blank(stored: Option<string>): (p: OptionsPage)
    ensures p.input == [] && !p.disabled && p.status.None? && p.trying.None?
    ensures p.stored == stored
  {
    OptionsPage([], false, None, stored, None)
  }

  /** The storage read's callback: a truthy key fills the input, replacing
      whatever was typed before it arrived; anything else changes nothing. */
  function Fill(p: OptionsPage, loaded: Option<string>): (q: OptionsPage)
    ensures Truthy(loaded) ==> q.input == loaded.value && q.(input := p.input) == p
    ensures !Truthy(loaded) ==> q == p
  {
    if Truthy(loaded) then p.(input := loaded.value) else p
  }

  /** Loading the page when the storage read answers before anything else
      happens: a truthy stored key fills the input, which is otherwise left
      empty. */
  function Open(stored: Option<string>): (p: OptionsPage)
    ensures p.stored == stored && !p.disabled && p.status.None? && p.trying.None?
    ensures Truthy(stored) ==> p.input == stored.value
    ensures !Truthy(stored) ==> p.input == []
  {
    Fill(Blank(stored), stored)
  }

  /** A click on Save.  A disabled button receives no clicks.  A blank key and
      a key whose trimmed length is not eight are refused with an error and no
      request; otherwise the button is disabled while the trimmed key is tried.
      Only the length is checked, not which characters the key holds. */
  function Click(p: OptionsPage): (q: OptionsPage)
    ensures q.input == p.input && q.stored == p.stored
    ensures p.disabled ==> q == p
    ensures !p.disabled && Trim(p.input) == [] ==>
              q == p.(status := Some(Status(EmptyKeyMessage, ErrorClass)))
    ensures !p.disabled && Trim(p.input) != [] && |Trim(p.input)| != KeyLength ==>
              q == p.(status := Some(Status(KeyFormatMessage, ErrorClass)))
    ensures !p.disabled && q.disabled ==> q.trying == Some(Trim(p.input)) && WellFormedKey(q.trying.value)
    ensures !p.disabled ==> (q.disabled <==> |Trim(p.input)| == KeyLength)
  {
    if p.disabled then p
    else
      var key := Trim(p.input);
      if key == [] then p.(status := Some(Status(EmptyKeyMessage, ErrorClass)))
      else if |key| != KeyLength then p.(status := Some(Status(KeyFormatMessage, ErrorClass)))
      else p.(disabled := true, status := Some(Status(ValidatingMessage, NoClass)), trying := Some(key))
  }

  /** OMDb turned the key down: `Response` is `"False"` and `Error` is exactly
      `"Invalid API key!"`.  Any other answer, errors included, accepts it. */
  predicate RejectsKey(data: ApiResponse) {
    data.response == Some("False") && data.error == Some(InvalidKeyError)
  }

  /** The test request completing.  The button is enabled again in every case;
      the tried key is stored exactly when a response arrived that does not
      reject it. */
  function Reply(p: OptionsPage, outcome: FetchOutcome): (q: OptionsPage)
    ensures p.trying.None? ==> q == p
    ensures p.trying.Some? ==> !q.disabled && q.trying.None? && q.input == p.input
    ensures p.trying.Some? ==>
              (q.stored != p.stored ==> q.stored == p.trying)
    ensures p.trying.Some? ==>
              (q.stored == p.trying <==> (outcome.Received? && !RejectsKey(outcome.data)) || p.stored == p.trying)
    ensures p.trying.Some? ==> q.status.Some? && (q.status.value.kind == SuccessClass <==> outcome.Received? && !RejectsKey(outcome.data))
  {
    match p.trying
    case None => p
    case Some(key) =>
      match outcome
      case TransportFailure =>
        p.(disabled := false, status := Some(Status(NetworkMessage, ErrorClass)), trying := None)
      case Received(data) =>
        if RejectsKey(data) then
          p.(disabled := false, status := Some(Status(RejectedKeyMessage, ErrorClass)), trying := None)
        else
          p.(disabled := false, status := Some(Status(SavedMessage, SuccessClass)), stored := Some(key), trying := None)
  }

  /** The user typing in the input, which stays editable while a key is being
      tried; only the text changes. */
  function Edit(p: OptionsPage, text: string): (q: OptionsPage)
    ensures q.input == text
    ensures q.(input := p.input) == p
  {
    p.(input := text)
  }

  /** What can happen on the page: the storage read answering, the input
      being edited, a click, or the test request completing.  The click
      listener is registered before the read answers, so these come in any
      order. */
  datatype Event = Loaded(key: Option<string>) | Type(text: string) | Press | Answer(outcome: FetchOutcome)

  function Step(p: OptionsPage, e: Event): OptionsPage {
    match e
    case Loaded(key) => Fill(p, key)
    case Type(text) => Edit(p, text)
    case Press => Click(p)
    case Answer(outcome) => Reply(p, outcome)
  }

  function Run(p: OptionsPage, events: seq<Event>): OptionsPage
    decreases |events|
  {
    if events == [] then p else Run(Step(p, events[0]), events[1..])
  }

  /** The page's invariant: the button is disabled exactly while a key is being
      tried, and every key tried or stored is well formed. */
  predicate Inv(p: OptionsPage) {
    && (p.disabled <==> p.trying.Some?)
    && (p.trying.Some? ==> WellFormedKey(p.trying.value))
    && (p.stored.Some? ==> WellFormedKey(p.stored.value))
  }

  lemma StepKeepsInv(p: OptionsPage, e: Event)
    requires Inv(p)
    ensures Inv(Step(p, e))
  {
  }

  /** Starting from storage that is empty or holds a key this page saved,
      whatever is loaded, typed, clicked and answered, in any order, only well-formed keys are ever stored,
      and Save is disabled only while a test request is out. */
  lemma {:induction false} RunKeepsInv(p: OptionsPage, events: seq<Event>)
    requires Inv(p)
    ensures Inv(Run(p, events))
    decreases |events|
  {
    if events != [] {
      StepKeepsInv(p, events[0]);
      RunKeepsInv(Step(p, events[0]), events[1..]);
    }
  }

  /** A page just loaded satisfies the invariant when storage is empty or
      holds a key this page saved. */
  lemma BlankInv(stored: Option<string>)
    requires stored.None? || WellFormedKey(stored.value)
    ensures Inv(Blank(stored))
  {
  }

  /** A storage read answering late overwrites what was typed before it. */
  lemma LateLoadOverwrites(p: OptionsPage, text: string, loaded: Option<string>)
    requires Truthy(loaded)
    ensures Run(p, [Type(text), Loaded(loaded)]).input == loaded.value
    ensures Run(p, [Loaded(loaded), Type(text)]).input == text
  {
    var q := Edit(p, text);
    assert [Type(text), Loaded(loaded)][1..] == [Loaded(loaded)];
    assert Run(p, [Type(text), Loaded(loaded)]) == Run(q, [Loaded(loaded)]);
    assert [Loaded(loaded)][1..] == [];
    assert Run(q, [Loaded(loaded)]) == Fill(q, loaded);
    var f := Fill(p, loaded);
    assert [Loaded(loaded), Type(text)][1..] == [Type(text)];
    assert Run(p, [Loaded(loaded), Type(text)]) == Run(f, [Type(text)]);
    assert [Type(text)][1..] == [];
    assert Run(f, [Type(text)]) == Edit(f, text);
  }

  lemma OpenInv(stored: Option<string>)
    requires stored.None? || WellFormedKey(stored.value)
    ensures Inv(Open(stored))
  {
  }

  /** A click followed by the test's answer: a well-formed key in the input
      is stored, trimmed, unless OMDb rejects it; a response with any other
      error (no such movie, say) still stores it. */
  lemma SaveFlow(p: OptionsPage, outcome: FetchOutcome)
    requires Inv(p) && !p.disabled
    ensures var q := Reply(Click(p), outcome);
            && !q.disabled
            && (q.stored == Some(Trim(p.input))
                <==> (|Trim(p.input)| == KeyLength && outcome.Received? && !RejectsKey(outcome.data))
                     || p.stored == Some(Trim(p.input)))
            && (q.stored != p.stored ==> q.stored == Some(Trim(p.input)))
  {
  }

  /** Edits made while a key is being tried change nothing the answer
      decides: the key captured at the click is stored, not the text the
      input holds when the answer arrives. */
  lemma {:induction false} EditsWhileTrying(p: OptionsPage, texts: seq<string>, outcome: FetchOutcome)
    ensures var edited := Run(p, seq(|texts|, i requires 0 <= i < |texts| => Type(texts[i])));
            && edited.trying == p.trying && edited.stored == p.stored && edited.disabled == p.disabled
            && Reply(edited, outcome).stored == Reply(p, outcome).stored
            && Reply(edited, outcome).status == Reply(p, outcome).status
    decreases |texts|
  {
    var edits := seq(|texts|, i requires 0 <= i < |texts| => Type(texts[i]));
    if texts != [] {
      var q := Edit(p, texts[0]);
      assert edits[0] == Type(texts[0]);
      assert edits[1..] == seq(|texts[1..]|, i requires 0 <= i < |texts[1..]| => Type(texts[1..][i]));
      EditsWhileTrying(q, texts[1..], outcome);
    }
  }

  /** The key a click sends is the one stored when the answer accepts it,
      however the input is edited before the answer arrives. */
  lemma ClickEditAnswer(p: OptionsPage, texts: seq<string>, outcome: FetchOutcome)
    requires Inv(p) && !p.disabled && WellFormedKey(Trim(p.input))
    requires outcome.Received? && !RejectsKey(outcome.data)
    ensures var q := Run(Click(p), seq(|texts|, i requires 0 <= i < |texts| => Type(texts[i])));
            Reply(q, outcome).stored == Some(Trim(p.input))
  {
    EditsWhileTrying(Click(p), texts, outcome);
  }

  /** Eight characters are enough, even with white space inside: the key
      `"ab cd ef"` is sent for testing. */
  lemma InnerSpaceIsTried(p: OptionsPage, a: string, b: string, c: string)
    requires !p.disabled && a == "ab" && b == "cd" && c == "ef"
    requires p.input == a + " " + b + " " + c
    ensures Click(p).trying == Some(p.input)
  {
    assert p.input[0] == 'a' && p.input[7] == 'f';
    TrimOfTrimmed(p.input);
  }
}

=== FILE: scanner.dfy ===
/** The page-scanning fallbacks of content.js: `findMovieElements`,
    `extractMovieTitle` and `findInsertionPoint`.  The document is not
    modelled; it is given as the answers its queries return, with elements as
    opaque identifiers. */
module Scanner {
  import opened Wrappers
  import opened Text
  import opened Selection
  import opened Titles

  /** An element of the document, known only by its identity. */
  type ElementId = nat

  /** What the script reads inside one movie element. */
  datatype Element = Element(
    /** `textContent` of `.browse-item-title strong`; `None` when there is no such element. */
    titleText: Option<string>,
    /** `alt` of the first `img[alt]`; `None` when there is no such image. */
    imageAlt: Option<string>,
    /** The element's own attributes. */
    attributes: map<string, string>,
    /** The first descendants matching `.padding-small`, `.browse-item-title`
        and `.grid-item-padding`. */
    paddingSmall: Option<ElementId>,
    browseItemTitle: Option<ElementId>,
    gridItemPadding: Option<ElementId>)

  /** The document as the script queries it: the elements `querySelectorAll`
      returns for each selector, in document order, and what each element holds. */
  datatype Page = Page(matches: map<string, seq<ElementId>>, elements: map<ElementId, Element>)

  /** The selectors tried, most specific first. */
  const MovieSelectors: seq<string> :=
    ["li.js-collection-item.item-type-video", ".js-collection-item", ".browse-item-card"]

  /** The data attributes that may carry the title, in the order they are tried. */
  const DataTitleAttributes: seq<string> := ["data-title", "data-film-title", "data-movie-title"]

  /** `document.querySelectorAll(selector)`: nothing for a selector the page does not match. */
  function Query(page: Page, selector: string): seq<ElementId> {
    if selector in page.matches then page.matches[selector] else []
  }

  /** The element behind an identifier; one the page does not describe holds nothing. */
  function ElementOf(page: Page, id: ElementId): Element {
    if id in page.elements then page.elements[id] else Element(None, None, map[], None, None, None)
  }

  /** `element.getAttribute(name)`: `null` when the attribute is absent. */
  function Attribute(e: Element, name: string): Option<string> {
    if name in e.attributes then Some(e.attributes[name]) else None
  }

  /** `findMovieElements`: every element matched by the first selector that
      matches anything; the matches of later selectors are never added. */
  function FindMovieElements(page: Page): (movies: seq<ElementId>)
    ensures movies == [] <==> forall i :: 0 <= i < |MovieSelectors| ==> Query(page, MovieSelectors[i]) == []
    ensures movies != [] ==>
              exists i :: 0 <= i < |MovieSelectors| && movies == Query(page, MovieSelectors[i])
                          && forall j :: 0 <= j < i ==> Query(page, MovieSelectors[j]) == []
  {
    match FirstIndex(MovieSelectors, (selector: string) => Query(page, selector) != [])
    case None => []
    case Some(i) => Query(page, MovieSelectors[i])
  }

  /** The `.browse-item-title strong` text qualifies when it is not blank. */
  predicate StrongQualifies(e: Element) {
    e.titleText.Some? && Trim(e.titleText.value) != []
  }

  /** The image's `alt` qualifies when it is present and not blank. */
  predicate AltQualifies(e: Element) {
    Truthy(e.imageAlt) && Trim(e.imageAlt.value) != []
  }

  /** `getAttribute('data-title') || getAttribute('data-film-title') ||
      getAttribute('data-movie-title')`, kept only when truthy. */
  function DataTitle(e: Element): (r: Option<string>)
    ensures r.Some? ==> r.value != []
    ensures r.None? <==> forall i :: 0 <= i < |DataTitleAttributes| ==> !Truthy(Attribute(e, DataTitleAttributes[i]))
    ensures r == FirstSome(DataTitleSources(e))
  {
    assert DataTitleAttributes[0] == "data-title" && DataTitleAttributes[1] == "data-film-title";
    assert DataTitleAttributes[2] == "data-movie-title";
    FirstSomeSteps(DataTitleSources(e));
    if Truthy(Attribute(e, "data-title")) then Attribute(e, "data-title")
    else if Truthy(Attribute(e, "data-film-title")) then Attribute(e, "data-film-title")
    else if Truthy(Attribute(e, "data-movie-title")) then Attribute(e, "data-movie-title")
    else None
  }

  /** The data attributes in the order they are tried, each kept only when truthy. */
  function DataTitleSources(e: Element): seq<Option<string>> {
    [ TruthyAttribute(e, DataTitleAttributes[0]),
      TruthyAttribute(e, DataTitleAttributes[1]),
      TruthyAttribute(e, DataTitleAttributes[2]) ]
  }

  /** `extractMovieTitle`: the cleaned text of the first source that qualifies,
      or `null` when none does.  A source that qualifies may still clean to
      the empty string. */
  function ExtractMovieTitle(e: Element): (r: Option<string>)
    ensures r.None? <==> !StrongQualifies(e) && !AltQualifies(e) && DataTitle(e).None?
    ensures r.Some? ==> NoOuterSpace(r.value) && OnlyBlanks(r.value)
    ensures StrongQualifies(e) ==> r == Some(CleanTitle(e.titleText.value))
  {
    if StrongQualifies(e) then Some(CleanTitle(e.titleText.value))
    else if AltQualifies(e) then Some(CleanTitle(e.imageAlt.value))
    else match DataTitle(e)
      case Some(t) => Some(CleanTitle(t))
      case None => None
  }

  /** Every title source in the order it is tried, present only when it qualifies. */
  function TitleSources(e: Element): seq<Option<string>> {
    [ if StrongQualifies(e) then e.titleText else None,
      if AltQualifies(e) then e.imageAlt else None ]
    + DataTitleSources(e)
  }

  /** An attribute kept only when it is truthy. */
  function TruthyAttribute(e: Element, name: string): Option<string> {
    if Truthy(Attribute(e, name)) then Attribute(e, name) else None
  }

  /** `extractMovieTitle` is "clean the first source that qualifies": the
      if-chain agrees with a first-match search over all five sources. */
  lemma ExtractIsFirstSource(e: Element)
    ensures ExtractMovieTitle(e) == match FirstSome(TitleSources(e))
                                    case None => None
                                    case Some(t) => Some(CleanTitle(t))
  {
    var src := TitleSources(e);
    assert DataTitleAttributes[0] == "data-title" && DataTitleAttributes[1] == "data-film-title";
    assert DataTitleAttributes[2] == "data-movie-title";
    FirstSomeSteps(src);
  }

  /** A title source holding only a year marker and white space qualifies but
      cleans to the empty title. */
  lemma YearOnlyTitle(e: Element, lead: string, year: string, trail: string)
    requires e.titleText == Some(lead + year + trail)
    requires AllSpace(lead) && AllSpace(trail) && |year| == 6 && YearAt(year, 0)
    ensures ExtractMovieTitle(e) == Some([])
  {
    TrimPadded(lead, year, trail);
    CleanTitleYearOnly(lead, year, trail);
  }

  /** `findInsertionPoint`: the first of `.padding-small`, `.browse-item-title`
      and `.grid-item-padding` the element contains, else the element itself,
      so there is always somewhere to put the badge. */
  function FindInsertionPoint(e: Element, self: ElementId): (r: ElementId)
    ensures e.paddingSmall.Some? ==> r == e.paddingSmall.value
    ensures e.paddingSmall.None? && e.browseItemTitle.Some? ==> r == e.browseItemTitle.value
    ensures e.paddingSmall.None? && e.browseItemTitle.None? && e.gridItemPadding.Some?
            ==> r == e.gridItemPadding.value
    ensures e.paddingSmall.None? && e.browseItemTitle.None? && e.gridItemPadding.None? ==> r == self
  {
    var candidates := [e.paddingSmall, e.browseItemTitle, e.gridItemPadding];
    FirstSomeSteps(candidates);
    FirstSome(candidates).GetOr(self)
  }
}

=== FILE: selection.dfy ===
/** The "first match wins" searches the script uses to choose among fallbacks:
    `Array.prototype.find`, a `for … break` loop and a chain of `||`. */
module Selection {
  import opened Wrappers

  /** The index of the first element of `xs` satisfying `p`. */
  function FirstIndex<T>(xs: seq<T>, p: T -> bool): (r: Option<nat>)
    ensures r.Some? ==> r.value < |xs| && p(xs[r.value])
    ensures r.Some? ==> forall j :: 0 <= j < r.value ==> !p(xs[j])
    ensures r.None? <==> forall j :: 0 <= j < |xs| ==> !p(xs[j])
  {
    if xs == [] then None
    else if p(xs[0]) then Some(0)
    else
      match FirstIndex(xs[1..], p)
      case None => None
      case Some(i) => Some(i + 1)
  }

  /** The first present value of `xs`: `candidates.find(el => el !== null)`. */
  function FirstSome<T>(xs: seq<Option<T>>): (r: Option<T>)
    ensures r.Some? <==> exists i :: 0 <= i < |xs| && xs[i].Some?
    ensures r.Some? ==> exists i :: 0 <= i < |xs| && xs[i] == r
                           && forall j :: 0 <= j < i ==> xs[j].None?
  {
    if xs == [] then None
    else if xs[0].Some? then xs[0]
    else
      var r := FirstSome(xs[1..]);
      assert forall i :: 1 <= i < |xs| ==> xs[i] == xs[1..][i - 1];
      r
  }

  /** One step of `FirstSome`: the head when it is present, else the search
      of the rest. */
  lemma FirstSomeStep<T>(xs: seq<Option<T>>)
    requires xs != []
    ensures FirstSome(xs) == if xs[0].Some? then xs[0] else FirstSome(xs[1..])
  {
  }

  /** `FirstSome` over a short list, spelled out as the chain of `||` it models. */
  lemma FirstSomeSteps<T>(xs: seq<Option<T>>)
    requires |xs| == 3 || |xs| == 5
    ensures |xs| == 3 ==> FirstSome(xs) == (if xs[0].Some? then xs[0] else if xs[1].Some? then xs[1] else xs[2])
    ensures |xs| == 5 ==> FirstSome(xs) == (if xs[0].Some? then xs[0] else if xs[1].Some? then xs[1]
                                            else if xs[2].Some? then xs[2] else if xs[3].Some? then xs[3] else xs[4])
  {
    FirstSomeStep(xs);
    FirstSomeStep(xs[1..]);
    FirstSomeStep(xs[2..]);
    assert xs[1..][1..] == xs[2..];
    if |xs| == 3 {
      assert xs[2..][1..] == [];
    } else {
      assert xs[2..][1..] == xs[3..];
      FirstSomeStep(xs[3..]);
      FirstSomeStep(xs[4..]);
      assert xs[3..][1..] == xs[4..];
      assert xs[4..][1..] == [];
    }
  }
}

=== FILE: slugs.dfy ===
/** `createRottenTomatoesUrl` of content.js: the guess at a film's Rotten
    Tomatoes address made from its title. */
module Slugs {
  import opened Wrappers
  import opened Text
  import opened Selection

  const RtBase := "https://www.rottentomatoes.com/m/"

  function LowerChar(c: char): char {
    if 'A' <= c <= 'Z' then (c as int + 32) as char else c
  }

  /** `toLowerCase`, on the ASCII letters. */
  function Lower(s: string): (r: string)
    ensures |r| == |s| && forall i :: 0 <= i < |s| ==> r[i] == LowerChar(s[i])
  {
    seq(|s|, i requires 0 <= i < |s| => LowerChar(s[i]))
  }

  /** The title with `[^a-z0-9\s]` removed from its lower-cased form. */
  function Kept(title: string): (r: string)
    ensures |r| <= |title|
    ensures forall i :: 0 <= i < |r| ==> 'a' <= r[i] <= 'z' || IsDigit(r[i]) || IsSpace(r[i])
    ensures OutsideClass(Lower(title), Special) ==> r == Lower(title)
  {
    var lowered := Lower(title);
    if OutsideClass(lowered, Special) then
      SqueezeOutside(lowered, Special);
      Squeeze(lowered, Special)
    else
      Squeeze(lowered, Special)
  }

  predicate StartsThe(u: string) {
    |u| >= 4 && u[..4] == "the_"
  }

  /** `.replace(/^the_/, '')`: one leading `the_` is dropped. */
  function DropThe(u: string): (r: string)
    ensures StartsThe(u) ==> u == "the_" + r
    ensures !StartsThe(u) ==> r == u
  {
    if StartsThe(u) then u[4..] else u
  }

  /** The kept characters start with the word `the` and white space after it:
      the case in which the slug loses its leading `the`. */
  predicate DropsThe(f: string) {
    |f| >= 4 && f[..3] == "the" && IsSpace(f[3])
  }

  /** `r` is `c` with the characters before `a` and after `a + |r|` cut off,
      all of them underscores. */
  predicate Unwrapped(r: string, c: string, a: int) {
    && 0 <= a && a + |r| <= |c| && r == c[a..a + |r|]
    && (forall k :: 0 <= k < a ==> c[k] == '_')
    && (forall k :: a + |r| <= k < |c| ==> c[k] == '_')
  }

  /** `.replace(/^_|_$/g, '')`: at most one underscore goes from each end (a
      lone `"_"` is matched once, by `^_`). */
  function TrimUnderscores(c: string): (r: string)
    ensures |c| - 2 <= |r| <= |c|
    ensures Unwrapped(r, c, if c != [] && c[0] == '_' then 1 else 0)
    ensures NoAdjacent(c, Underscores) ==> r == [] || (r[0] != '_' && r[|r| - 1] != '_')
    ensures |r| == |c| - (if c != [] && c[0] == '_' then 1 else 0)
                       - (if |c| >= 2 && c[|c| - 1] == '_' then 1 else 0)
  {
    var a := if c != [] && c[0] == '_' then 1 else 0;
    var b := if |c| > a && c[|c| - 1] == '_' then |c| - 1 else |c|;
    c[a..b]
  }

  predicate IsSlugChar(c: char) {
    'a' <= c <= 'z' || IsDigit(c) || c == '_'
  }

  predicate AllSlugChars(s: string) {
    forall i :: 0 <= i < |s| ==> IsSlugChar(s[i])
  }

  /** The slug of `createRottenTomatoesUrl`: lower-case, drop everything but
      ASCII letters, digits and white space, turn white-space runs into `_`,
      drop one leading `the_`, merge `_` runs, then cut one `_` from each end.
      It holds only `[a-z0-9_]`, never two underscores in a row, and no
      underscore at either end. */
  function Slug(title: string): (r: string)
    ensures AllSlugChars(r)
    ensures NoAdjacent(r, Underscores)
    ensures r == [] || (r[0] != '_' && r[|r| - 1] != '_')
  {
    var f := Kept(title);
    var u := ReplaceRuns(f, Whitespace, '_');
    var d := DropThe(u);
    var c := ReplaceRuns(d, Underscores, '_');
    KeptUnderscoredSlugChars(f, u);
    assert AllSlugChars(d);
    RunsKeepSlugChars(d, c);
    var r := TrimUnderscores(c);
    UnwrappedKeeps(r, c, if c != [] && c[0] == '_' then 1 else 0);
    r
  }

  /** The address `createRottenTomatoesUrl` returns; the year it is passed is unused. */
  function RottenTomatoesUrl(title: string, year: Option<string>): (r: string)
    ensures |RtBase| <= |r| && r[..|RtBase|] == RtBase && r[|RtBase|..] == Slug(title)
  {
    RtBase + Slug(title)
  }

  lemma KeptUnderscoredSlugChars(f: string, u: string)
    requires forall i :: 0 <= i < |f| ==> !InClass(f[i], Special)
    requires CharsFrom(u, f, Whitespace, '_')
    ensures AllSlugChars(u)
  {
    forall i | 0 <= i < |u| ensures IsSlugChar(u[i]) {
      if u[i] != '_' {
        var j :| 0 <= j < |f| && f[j] == u[i];
      }
    }
  }

  lemma RunsKeepSlugChars(d: string, c: string)
    requires AllSlugChars(d)
    requires CharsFrom(c, d, Underscores, '_')
    ensures AllSlugChars(c)
  {
    forall i | 0 <= i < |c| ensures IsSlugChar(c[i]) {
      if c[i] != '_' {
        var j :| 0 <= j < |d| && d[j] == c[i];
      }
    }
  }

  /** Cutting underscores off the ends keeps the character set and keeps
      underscores apart. */
  lemma UnwrappedKeeps(r: string, c: string, a: int)
    requires Unwrapped(r, c, a)
    requires AllSlugChars(c) && NoAdjacent(c, Underscores)
    ensures AllSlugChars(r) && NoAdjacent(r, Underscores)
  {
    assert forall i :: 0 <= i < |r| ==> r[i] == c[a + i];
  }

  /** The kept characters up to their first white space at `j`, and how
      `ReplaceRuns` splits there. */
  lemma FirstSpace(f: string) returns (j: nat)
    ensures j <= |f| && OutsideClass(f[..j], Whitespace)
    ensures j < |f| ==> IsSpace(f[j])
    ensures j <= |ReplaceRuns(f, Whitespace, '_')| && ReplaceRuns(f, Whitespace, '_')[..j] == f[..j]
    ensures j < |f| ==> |ReplaceRuns(f, Whitespace, '_')| > j && ReplaceRuns(f, Whitespace, '_')[j] == '_'
    ensures j == |f| ==> ReplaceRuns(f, Whitespace, '_') == f
  {
    var first := FirstIndex(f, IsSpace);
    j := if first.Some? then first.value else |f|;
    assert forall i :: 0 <= i < j ==> !IsSpace(f[i]);
    assert OutsideClass(f[..j], Whitespace);
    ReplaceRunsSplit(f, j, Whitespace, '_');
  }

  /** After the white-space runs of the kept characters become underscores,
      the result starts with `the_` exactly when the kept characters start
      with `the` and white space. */
  lemma DropTheIff(f: string)
    requires forall i :: 0 <= i < |f| ==> f[i] != '_'
    ensures StartsThe(ReplaceRuns(f, Whitespace, '_')) <==> DropsThe(f)
  {
    if DropsThe(f) {
      TheThenUnderscore(f);
    }
    if StartsThe(ReplaceRuns(f, Whitespace, '_')) {
      UnderscoreAfterThe(f);
    }
  }

  lemma TheThenUnderscore(f: string)
    requires DropsThe(f)
    ensures StartsThe(ReplaceRuns(f, Whitespace, '_'))
  {
    var u := ReplaceRuns(f, Whitespace, '_');
    var j := FirstSpace(f);
    assert f[0] == 't' && f[1] == 'h' && f[2] == 'e';
    assert j == 3;
    assert u[..4] == u[..3] + [u[3]];
  }

  lemma UnderscoreAfterThe(f: string)
    requires forall i :: 0 <= i < |f| ==> f[i] != '_'
    requires StartsThe(ReplaceRuns(f, Whitespace, '_'))
    ensures DropsThe(f)
  {
    var u := ReplaceRuns(f, Whitespace, '_');
    var j := FirstSpace(f);
    assert u[3] == '_';
    assert j < 4 && j < |f|;
    assert j == 3;
    assert f[..3] == u[..3];
  }

  /** Cutting underscores off the ends loses only underscores. */
  lemma UnwrappedSqueeze(r: string, c: string, a: int)
    requires Unwrapped(r, c, a)
    ensures Squeeze(r, Underscores) == Squeeze(c, Underscores)
  {
    var j := a + |r|;
    SplitThree(c, a, j);
    SqueezeAround(c[..a], r, c[j..], Underscores);
  }

  /** The slug keeps every letter and digit of the title, in order, and loses
      only its white space, its other characters and, when the title starts
      with the word `the`, that word. */
  lemma SlugLetters(title: string)
    ensures DropsThe(Kept(title))
        ==> "the" + Squeeze(Slug(title), Underscores) == Squeeze(Kept(title), Whitespace)
    ensures !DropsThe(Kept(title))
        ==> Squeeze(Slug(title), Underscores) == Squeeze(Kept(title), Whitespace)
  {
    var f := Kept(title);
    var u := ReplaceRuns(f, Whitespace, '_');
    var d := DropThe(u);
    var c := ReplaceRuns(d, Underscores, '_');
    assert forall i :: 0 <= i < |f| ==> f[i] != '_' by {
      assert InClass('_', Special);
    }
    RunsSqueeze(f, Whitespace, Underscores, '_', false);
    DropTheIff(f);
    if StartsThe(u) {
      assert u == u[..4] + d;
      SqueezeAppend(u[..4], d, Underscores);
      TheSqueezed(u[..4]);
    }
    RunsSqueeze(d, Underscores, Underscores, '_', false);
    UnwrappedSqueeze(TrimUnderscores(c), c, if c != [] && c[0] == '_' then 1 else 0);
  }

  lemma TheSqueezed(s: string)
    requires s == "the_"
    ensures Squeeze(s, Underscores) == "the"
  {
    assert s == "t" + "he_";
    assert Squeeze(s, Underscores) == "t" + Squeeze("he_", Underscores);
  }

  /** The words of `ws` with `sep` between neighbours. */
  function Join(ws: seq<string>, sep: string): string {
    if ws == [] then [] else if |ws| == 1 then ws[0] else ws[0] + sep + Join(ws[1..], sep)
  }

  predicate IsAlnum(c: char) {
    'a' <= c <= 'z' || 'A' <= c <= 'Z' || IsDigit(c)
  }

  /** A word of ASCII letters and digits. */
  predicate IsWord(w: string) {
    w != [] && forall i :: 0 <= i < |w| ==> IsAlnum(w[i])
  }

  predicate AllWords(ws: seq<string>) {
    forall i :: 0 <= i < |ws| ==> IsWord(ws[i])
  }

  /** A word of lower-case ASCII letters and digits. */
  predicate IsLowerWord(w: string) {
    w != [] && forall i :: 0 <= i < |w| ==> 'a' <= w[i] <= 'z' || IsDigit(w[i])
  }

  predicate AllLowerWords(ws: seq<string>) {
    forall i :: 0 <= i < |ws| ==> IsLowerWord(ws[i])
  }

  function LowerAll(ws: seq<string>): (r: seq<string>)
    ensures |r| == |ws| && forall i :: 0 <= i < |ws| ==> r[i] == Lower(ws[i])
  {
    seq(|ws|, i requires 0 <= i < |ws| => Lower(ws[i]))
  }

  lemma LowerAppend(a: string, b: string)
    ensures Lower(a + b) == Lower(a) + Lower(b)
  {
  }

  lemma {:induction false} LowerJoin(ws: seq<string>)
    ensures Lower(Join(ws, " ")) == Join(LowerAll(ws), " ")
    decreases |ws|
  {
    if |ws| >= 2 {
      LowerJoin(ws[1..]);
      assert LowerAll(ws)[1..] == LowerAll(ws[1..]);
      LowerAppend(ws[0] + " ", Join(ws[1..], " "));
      LowerAppend(ws[0], " ");
    }
  }

  /** Lower-casing a word of letters and digits gives a lower-case word. */
  lemma LowerWords(ws: seq<string>)
    requires AllWords(ws)
    ensures AllLowerWords(LowerAll(ws))
  {
    forall i | 0 <= i < |ws| ensures IsLowerWord(LowerAll(ws)[i]) {
      var w := ws[i];
      assert forall k :: 0 <= k < |w| ==> Lower(w)[k] == LowerChar(w[k]);
    }
  }

  /** A joined string begins with the first character of its first word and
      ends with the last character of its last word. */
  lemma {:induction false} JoinEnds(ws: seq<string>, sep: string)
    requires ws != [] && forall i :: 0 <= i < |ws| ==> ws[i] != []
    ensures Join(ws, sep) != []
    ensures Join(ws, sep)[0] == ws[0][0]
    ensures Join(ws, sep)[|Join(ws, sep)| - 1] == ws[|ws| - 1][|ws[|ws| - 1]| - 1]
    decreases |ws|
  {
    if |ws| >= 2 {
      var rest := ws[1..];
      assert forall i :: 0 <= i < |rest| ==> rest[i] == ws[i + 1];
      JoinEnds(rest, sep);
      var r := Join(rest, sep);
      var s := ws[0] + sep + r;
      assert Join(ws, sep) == s;
      assert s[0] == ws[0][0];
      assert s[|s| - 1] == r[|r| - 1];
      assert rest[|rest| - 1] == ws[|ws| - 1];
    }
  }

  /** No character of a joined string is in class `k` when none of the words'
      and none of the separator's is. */
  lemma {:induction false} JoinOutside(ws: seq<string>, sep: string, k: CharClass)
    requires forall i :: 0 <= i < |ws| ==> OutsideClass(ws[i], k)
    requires OutsideClass(sep, k)
    ensures OutsideClass(Join(ws, sep), k)
    decreases |ws|
  {
    if |ws| >= 2 {
      JoinOutside(ws[1..], sep, k);
      var rest := Join(ws[1..], sep);
      var s := ws[0] + sep + rest;
      forall i | 0 <= i < |s| ensures !InClass(s[i], k) {
        if i < |ws[0]| {
          assert s[i] == ws[0][i];
        } else if i < |ws[0]| + |sep| {
          assert s[i] == sep[i - |ws[0]|];
        } else {
          assert s[i] == rest[i - |ws[0]| - |sep|];
        }
      }
    }
  }

  /** `ReplaceRuns` turns each one-character separator of class `k` between
      words outside the class into `rep`. */
  lemma {:induction false} RunsJoin(ws: seq<string>, sep: char, k: CharClass, rep: char)
    requires ws != [] && InClass(sep, k)
    requires forall i :: 0 <= i < |ws| ==> ws[i] != [] && OutsideClass(ws[i], k)
    ensures ReplaceRuns(Join(ws, [sep]), k, rep) == Join(ws, [rep])
    decreases |ws|
  {
    if |ws| == 1 {
      RunsWord(ws[0], k, rep);
    } else {
      RunsJoin(ws[1..], sep, k, rep);
      JoinEnds(ws[1..], [sep]);
      ReplaceRunsStep(ws[0], [sep], Join(ws[1..], [sep]), k, rep);
    }
  }

  /** On lower-case words joined by underscores, the `the_` drop removes the
      first word exactly when it is `the` and another word follows. */
  lemma DropTheJoin(ws: seq<string>)
    requires ws != [] && AllLowerWords(ws)
    ensures DropThe(Join(ws, "_"))
         == if |ws| >= 2 && ws[0] == "the" then Join(ws[1..], "_") else Join(ws, "_")
  {
    if |ws| == 1 {
      assert Join(ws, "_") == ws[0];
      assert IsLowerWord(ws[0]);
      NoTheInWord(ws[0]);
    } else {
      assert IsLowerWord(ws[0]);
      DropTheFirst(ws[0], Join(ws[1..], "_"));
    }
  }

  lemma NoTheInWord(w: string)
    requires IsLowerWord(w)
    ensures !StartsThe(w)
  {
    assert |w| >= 4 ==> w[3] != '_';
  }

  lemma DropTheFirst(w: string, rest: string)
    requires IsLowerWord(w)
    ensures DropThe(w + "_" + rest) == if w == "the" then rest else w + "_" + rest
  {
    var u := w + "_" + rest;
    if w == "the" {
      assert u[..4] == "the_";
      assert u[4..] == rest;
    } else if |w| >= 4 {
      assert u[3] == w[3] && w[3] != '_';
    } else if |w| == 3 {
      assert u[..3] == w;
    } else {
      assert u[|w|] == '_';
    }
  }

  /** `Slug` is the composition of its five steps. */
  lemma SlugSteps(title: string, f: string, u: string, d: string, c: string, r: string)
    requires Kept(title) == f && ReplaceRuns(f, Whitespace, '_') == u
    requires DropThe(u) == d && ReplaceRuns(d, Underscores, '_') == c
    requires TrimUnderscores(c) == r
    ensures Slug(title) == r
  {
  }

  /** Lower-casing and filtering words of letters and digits joined by spaces
      leaves the lower-cased words joined by spaces. */
  lemma KeptWords(ws: seq<string>)
    requires AllWords(ws)
    ensures Kept(Join(ws, " ")) == Join(LowerAll(ws), " ")
    ensures AllLowerWords(LowerAll(ws))
  {
    var lws := LowerAll(ws);
    LowerJoin(ws);
    LowerWords(ws);
    LowerWordsOutside(lws, Special);
    JoinOutside(lws, " ", Special);
    SqueezeOutside(Join(lws, " "), Special);
  }

  /** Lower-case words joined by underscores are a slug already. */
  lemma SlugJoinFixed(ws: seq<string>)
    requires ws != [] && AllLowerWords(ws)
    ensures TrimUnderscores(ReplaceRuns(Join(ws, "_"), Underscores, '_')) == Join(ws, "_")
  {
    LowerWordsOutside(ws, Underscores);
    RunsJoin(ws, '_', Underscores, '_');
    JoinEnds(ws, "_");
  }

  /** Lower-case words hold no character of any of the classes. */
  lemma LowerWordsOutside(ws: seq<string>, k: CharClass)
    requires AllLowerWords(ws)
    ensures forall i :: 0 <= i < |ws| ==> OutsideClass(ws[i], k)
  {
    forall i | 0 <= i < |ws| ensures OutsideClass(ws[i], k) {
      assert IsLowerWord(ws[i]);
    }
  }

  /** The words a slug of `ws` is made of: the lower-cased words, without a
      first `the` that has another word after it. */
  function SlugWords(ws: seq<string>): (r: seq<string>)
    requires ws != []
    ensures AllWords(ws) ==> r != [] && AllLowerWords(r)
  {
    LowerWordsOf(ws);
    if |ws| >= 2 && Lower(ws[0]) == "the" then LowerAll(ws)[1..] else LowerAll(ws)
  }

  lemma LowerWordsOf(ws: seq<string>)
    ensures AllWords(ws) ==> AllLowerWords(LowerAll(ws))
  {
    if AllWords(ws) {
      LowerWords(ws);
    }
  }

  /** Words of ASCII letters and digits separated by single spaces: the slug is
      the lower-cased words joined by underscores, without a leading `the`
      that has another word after it.  `"The Grand Budapest Hotel"` gives
      `grand_budapest_hotel`, although the comment above the function says
      `the_grand_budapest_hotel`. */
  lemma SlugOfWords(ws: seq<string>)
    requires ws != [] && AllWords(ws)
    ensures Slug(Join(ws, " ")) == Join(SlugWords(ws), "_")
  {
    var lws := LowerAll(ws);
    KeptWords(ws);
    LowerWordsOutside(lws, Whitespace);
    RunsJoin(lws, ' ', Whitespace, '_');
    DropTheJoin(lws);
    var kept := SlugWords(ws);
    SlugJoinFixed(kept);
    SlugSteps(Join(ws, " "), Join(lws, " "), Join(lws, "_"), Join(kept, "_"),
              ReplaceRuns(Join(kept, "_"), Underscores, '_'), Join(kept, "_"));
  }

  /** The example of the script's comment, as the code computes it. */
  lemma GrandBudapestHotel(a: string, b: string, c: string, d: string)
    requires a == "The" && b == "Grand" && c == "Budapest" && d == "Hotel"
    ensures Slug(a + " " + b + " " + c + " " + d) == "grand_budapest_hotel"
  {
    JoinFour(a, b, c, d, " ");
    GrandBudapestJoined([a, b, c, d]);
    GrandBudapestSpelled();
  }

  lemma GrandBudapestJoined(ws: seq<string>)
    requires ws == ["The", "Grand", "Budapest", "Hotel"]
    ensures Slug(Join(ws, " ")) == Join(["grand", "budapest", "hotel"], "_")
  {
    GrandBudapestWords(ws);
    SlugOfWords(ws);
  }

  lemma GrandBudapestSpelled()
    ensures Join(["grand", "budapest", "hotel"], "_") == "grand_budapest_hotel"
  {
    JoinThree("grand", "budapest", "hotel", "_");
  }

  lemma JoinFour(a: string, b: string, c: string, d: string, sep: string)
    ensures Join([a, b, c, d], sep) == a + sep + b + sep + c + sep + d
  {
    var ws := [a, b, c, d];
    assert ws[1..] == [b, c, d];
    JoinThree(b, c, d, sep);
    assert Join(ws, sep) == a + sep + (b + sep + c + sep + d);
  }

  lemma JoinThree(a: string, b: string, c: string, sep: string)
    ensures Join([a, b, c], sep) == a + sep + b + sep + c
  {
    var ws := [a, b, c];
    assert ws[1..] == [b, c] && ws[1..][1..] == [c];
    assert Join([c], sep) == c;
    assert Join([b, c], sep) == b + sep + c;
    assert Join(ws, sep) == a + sep + (b + sep + c);
  }

  lemma GrandBudapestWords(ws: seq<string>)
    requires ws == ["The", "Grand", "Budapest", "Hotel"]
    ensures AllWords(ws) && SlugWords(ws) == ["grand", "budapest", "hotel"]
  {
    LowerIs(ws[0], "the");
    LowerIs(ws[1], "grand");
    LowerIs(ws[2], "budapest");
    LowerIs(ws[3], "hotel");
  }

  lemma LowerIs(w: string, l: string)
    requires |w| == |l| && forall i :: 0 <= i < |w| ==> LowerChar(w[i]) == l[i]
    ensures Lower(w) == l
  {
  }
}

=== FILE: text.dfy ===
/** Character classes and the string rewrites the content script builds from
    `String.prototype.trim` and global regular-expression replacements. */
module Text {

  /** The characters JavaScript's `\s` and `trim` both treat as white space:
      the ECMAScript WhiteSpace and LineTerminator productions. */
  predicate IsSpace(c: char) {
    || c == '\t' || c == '\n' || c == '\U{0B}' || c == '\U{0C}' || c == '\r'
    || c == ' ' || c == '\U{A0}' || c == '\U{1680}'
    || ('\U{2000}' <= c <= '\U{200A}')
    || c == '\U{2028}' || c == '\U{2029}' || c == '\U{202F}' || c == '\U{205F}'
    || c == '\U{3000}' || c == '\U{FEFF}'
  }

  /** `\d` in a JavaScript regular expression: ASCII digits only. */
  predicate IsDigit(c: char) {
    '0' <= c <= '9'
  }

  predicate AllSpace(s: string) {
    forall k :: 0 <= k < |s| ==> IsSpace(s[k])
  }

  /** Neither end of `s` is white space: what `trim` guarantees. */
  predicate NoOuterSpace(s: string) {
    s == [] || (!IsSpace(s[0]) && !IsSpace(s[|s| - 1]))
  }

  /** The number of white-space characters `s` starts with. */
  function LeadingSpace(s: string): (n: nat)
    ensures n <= |s|
    ensures forall k :: 0 <= k < n ==> IsSpace(s[k])
    ensures n < |s| ==> !IsSpace(s[n])
  {
    if s == [] || !IsSpace(s[0]) then 0 else 1 + LeadingSpace(s[1..])
  }

  /** The position where the white space `s` ends with begins. */
  function TrailingSpace(s: string): (n: nat)
    ensures n <= |s|
    ensures forall k :: n <= k < |s| ==> IsSpace(s[k])
    ensures 0 < n ==> !IsSpace(s[n - 1])
  {
    if s == [] || !IsSpace(s[|s| - 1]) then |s| else TrailingSpace(s[..|s| - 1])
  }

  /** White space before `s` only lengthens its leading white space. */
  lemma {:induction false} LeadingSpaceAppend(ws: string, s: string)
    requires AllSpace(ws)
    ensures LeadingSpace(ws + s) == |ws| + LeadingSpace(s)
    decreases |ws|
  {
    if ws == [] {
      assert ws + s == s;
    } else {
      assert (ws + s)[1..] == ws[1..] + s;
      LeadingSpaceAppend(ws[1..], s);
    }
  }

  /** `r` is the piece of `s` starting at `i`, and everything around it is white space. */
  predicate CutFrom(r: string, s: string, i: int) {
    && 0 <= i <= |s| - |r| && r == s[i..i + |r|]
    && (forall k :: 0 <= k < i ==> IsSpace(s[k]))
    && (forall k :: i + |r| <= k < |s| ==> IsSpace(s[k]))
  }

  /** `String.prototype.trim`: the piece of `s` left once the white space at both
      ends is cut off, so nothing but white space is lost and neither end of the
      result is white space. */
  function Trim(s: string): (r: string)
    ensures NoOuterSpace(r)
    ensures CutFrom(r, s, LeadingSpace(s))
    ensures r == [] <==> AllSpace(s)
  {
    var i := LeadingSpace(s);
    var j := TrailingSpace(s);
    if i <= j then s[i..j] else []
  }

  lemma TrimOfTrimmed(s: string)
    requires NoOuterSpace(s)
    ensures Trim(s) == s
  {
  }

  /** The character classes the script's regular expressions match: `\s`, `_`,
      and `[^a-z0-9\s]`, the characters a Rotten Tomatoes slug cannot hold. */
  datatype CharClass = Whitespace | Underscores | Special

  predicate InClass(c: char, k: CharClass) {
    match k
    case Whitespace => IsSpace(c)
    case Underscores => c == '_'
    case Special => !('a' <= c <= 'z' || IsDigit(c) || IsSpace(c))
  }

  /** Every character of `r` is `rep` or a character of `s` outside class `k`. */
  predicate CharsFrom(r: string, s: string, k: CharClass, rep: char) {
    forall i :: 0 <= i < |r| ==> r[i] == rep || (!InClass(r[i], k) && r[i] in s)
  }

  /** No two neighbouring characters of `s` are both in class `k`. */
  predicate NoAdjacent(s: string, k: CharClass) {
    forall i :: 0 <= i < |s| - 1 ==> !(InClass(s[i], k) && InClass(s[i + 1], k))
  }

  /** `s` without its class-`k` characters. */
  function Squeeze(s: string, k: CharClass): (r: string)
    ensures |r| <= |s|
    ensures forall i :: 0 <= i < |r| ==> !InClass(r[i], k)
  {
    if s == [] then []
    else if InClass(s[0], k) then Squeeze(s[1..], k)
    else [s[0]] + Squeeze(s[1..], k)
  }

  /** The rewrite of `s` by `ReplaceRuns` when the character before `s` was
      (`inRun`) or was not part of a class-`k` run. */
  function Runs(s: string, k: CharClass, rep: char, inRun: bool): (r: string)
    ensures |r| <= |s|
    ensures !inRun ==> (r == [] <==> s == [])
    ensures !inRun && s != [] ==> r[0] == (if InClass(s[0], k) then rep else s[0])
    ensures inRun && r != [] ==> !InClass(r[0], k)
  {
    if s == [] then []
    else if !InClass(s[0], k) then [s[0]] + Runs(s[1..], k, rep, false)
    else if inRun then Runs(s[1..], k, rep, true)
    else [rep] + Runs(s[1..], k, rep, true)
  }

  /** `s.replace(/<k>+/g, rep)`: every maximal run of class-`k` characters becomes
      one `rep`; all other characters are kept in order. */
  function ReplaceRuns(s: string, k: CharClass, rep: char): (r: string)
    ensures |r| <= |s|
    ensures r == [] <==> s == []
    ensures s != [] ==> r[0] == (if InClass(s[0], k) then rep else s[0])
    ensures CharsFrom(r, s, k, rep)
    ensures NoAdjacent(r, k)
  {
    RunsChars(s, k, rep, false);
    RunsNoAdjacent(s, k, rep, false);
    Runs(s, k, rep, false)
  }

  lemma {:induction false} RunsChars(s: string, k: CharClass, rep: char, inRun: bool)
    ensures CharsFrom(Runs(s, k, rep, inRun), s, k, rep)
  {
    if s != [] {
      var r := Runs(s, k, rep, inRun);
      var tail := Runs(s[1..], k, rep, InClass(s[0], k));
      RunsChars(s[1..], k, rep, InClass(s[0], k));
      assert r == tail || r == [r[0]] + tail;
      forall i | 0 <= i < |r| ensures r[i] == rep || (!InClass(r[i], k) && r[i] in s) {
        if r != tail && i == 0 {
        } else {
          var j := if r == tail then i else i - 1;
          assert r[i] == tail[j];
          assert tail[j] in s[1..] ==> tail[j] in s;
        }
      }
    }
  }

  lemma {:induction false} RunsNoAdjacent(s: string, k: CharClass, rep: char, inRun: bool)
    ensures NoAdjacent(Runs(s, k, rep, inRun), k)
  {
    if s != [] {
      var r := Runs(s, k, rep, inRun);
      var tail := Runs(s[1..], k, rep, InClass(s[0], k));
      RunsNoAdjacent(s[1..], k, rep, InClass(s[0], k));
      if r != tail {
        assert r == [r[0]] + tail;
        forall i | 0 <= i < |r| - 1 ensures !(InClass(r[i], k) && InClass(r[i + 1], k)) {
          if i > 0 {
            assert r[i] == tail[i - 1] && r[i + 1] == tail[i];
          }
        }
      }
    }
  }

  /** A rewrite of a string that does not end inside a run ends with the same
      character. */
  lemma {:induction false} RunsLast(s: string, k: CharClass, rep: char, inRun: bool)
    requires s != [] && !InClass(s[|s| - 1], k)
    ensures var r := Runs(s, k, rep, inRun); r != [] && r[|r| - 1] == s[|s| - 1]
  {
    if |s| > 1 {
      RunsLast(s[1..], k, rep, InClass(s[0], k));
    }
  }

  lemma ReplaceRunsLast(s: string, k: CharClass, rep: char)
    requires s != [] && !InClass(s[|s| - 1], k)
    ensures var r := ReplaceRuns(s, k, rep); r != [] && r[|r| - 1] == s[|s| - 1]
  {
    RunsLast(s, k, rep, false);
  }

  /** Rewriting distributes over concatenation: the right part is rewritten
      knowing whether the left part ended inside a run. */
  lemma {:induction false} RunsAppend(a: string, b: string, k: CharClass, rep: char, inRun: bool)
    ensures Runs(a + b, k, rep, inRun)
         == Runs(a, k, rep, inRun) + Runs(b, k, rep, if a == [] then inRun else InClass(a[|a| - 1], k))
    decreases |a|
  {
    if a == [] {
      assert a + b == b;
    } else {
      var next := InClass(a[0], k);
      assert a + b == [a[0]] + (a[1..] + b);
      assert a == [a[0]] + a[1..];
      RunsCons(a[0], a[1..] + b, k, rep, inRun);
      RunsCons(a[0], a[1..], k, rep, inRun);
      RunsAppend(a[1..], b, k, rep, next);
      var tail := a[1..];
      var after := if tail == [] then next else InClass(tail[|tail| - 1], k);
      assert after == InClass(a[|a| - 1], k);
      var h := if !next then [a[0]] else if inRun then [] else [rep];
      var left, right := Runs(tail, k, rep, next), Runs(b, k, rep, after);
      ConcatAssoc(h, left, right);
    }
  }

  lemma ConcatAssoc(x: string, y: string, z: string)
    ensures x + (y + z) == (x + y) + z
  {
  }

  /** One step of `Runs`: the head character is kept, dropped or replaced. */
  lemma RunsCons(c: char, s: string, k: CharClass, rep: char, inRun: bool)
    ensures Runs([c] + s, k, rep, inRun)
         == (if !InClass(c, k) then [c] else if inRun then [] else [rep])
            + Runs(s, k, rep, InClass(c, k))
  {
    assert ([c] + s)[0] == c && ([c] + s)[1..] == s;
  }

  /** A string whose class characters are already single replacement characters
      is left unchanged. */
  lemma {:induction false} RunsIdentity(s: string, k: CharClass, rep: char, inRun: bool)
    requires forall i :: 0 <= i < |s| && InClass(s[i], k) ==> s[i] == rep
    requires NoAdjacent(s, k)
    requires inRun ==> s == [] || !InClass(s[0], k)
    ensures Runs(s, k, rep, inRun) == s
  {
    if s != [] {
      RunsIdentity(s[1..], k, rep, InClass(s[0], k));
    }
  }

  lemma ReplaceRunsIdentity(s: string, k: CharClass, rep: char)
    requires forall i :: 0 <= i < |s| && InClass(s[i], k) ==> s[i] == rep
    requires NoAdjacent(s, k)
    ensures ReplaceRuns(s, k, rep) == s
  {
    RunsIdentity(s, k, rep, false);
  }

  /** Removing the class-`into` characters after rewriting the class-`k` runs
      gives the same as removing the class-`k` characters before: the
      replacement is an `into` character, and no character outside `k` is. */
  lemma {:induction false} RunsSqueeze(s: string, k: CharClass, into: CharClass, rep: char, inRun: bool)
    requires InClass(rep, into)
    requires forall i :: 0 <= i < |s| && !InClass(s[i], k) ==> !InClass(s[i], into)
    ensures Squeeze(Runs(s, k, rep, inRun), into) == Squeeze(s, k)
    decreases |s|
  {
    if s != [] {
      RunsSqueeze(s[1..], k, into, rep, InClass(s[0], k));
      var tail := Runs(s[1..], k, rep, InClass(s[0], k));
      if InClass(s[0], k) && !inRun {
        assert ([rep] + tail)[1..] == tail;
      } else if !InClass(s[0], k) {
        assert ([s[0]] + tail)[1..] == tail;
      }
    }
  }

  lemma {:induction false} SqueezeAppend(a: string, b: string, k: CharClass)
    ensures Squeeze(a + b, k) == Squeeze(a, k) + Squeeze(b, k)
    decreases |a|
  {
    if a == [] {
      assert a + b == b;
    } else {
      assert (a + b)[0] == a[0] && (a + b)[1..] == a[1..] + b;
      SqueezeAppend(a[1..], b, k);
    }
  }

  /** One step of `Squeeze`: the head goes when it is in the class. */
  lemma SqueezeCons(c: char, s: string, k: CharClass)
    ensures Squeeze([c] + s, k) == if InClass(c, k) then Squeeze(s, k) else [c] + Squeeze(s, k)
  {
    assert ([c] + s)[0] == c && ([c] + s)[1..] == s;
  }

  /** A string made only of class-`k` characters squeezes to nothing. */
  lemma {:induction false} SqueezeAllIn(s: string, k: CharClass)
    requires forall i :: 0 <= i < |s| ==> InClass(s[i], k)
    ensures Squeeze(s, k) == []
    decreases |s|
  {
    if s != [] {
      SqueezeAllIn(s[1..], k);
    }
  }

  /** A string without class-`k` characters is its own squeeze. */
  lemma {:induction false} SqueezeOutside(s: string, k: CharClass)
    requires OutsideClass(s, k)
    ensures Squeeze(s, k) == s
    decreases |s|
  {
    if s != [] {
      SqueezeOutside(s[1..], k);
    }
  }

  /** Trimming removes white space only. */
  lemma TrimSqueeze(s: string)
    ensures Squeeze(Trim(s), Whitespace) == Squeeze(s, Whitespace)
  {
    var r := Trim(s);
    var i := LeadingSpace(s);
    var j := i + |r|;
    SplitThree(s, i, j);
    SqueezeAround(s[..i], r, s[j..], Whitespace);
  }

  /** Squeezing ignores a prefix and a suffix made only of class characters. */
  lemma SqueezeAround(a: string, r: string, c: string, k: CharClass)
    requires forall i :: 0 <= i < |a| ==> InClass(a[i], k)
    requires forall i :: 0 <= i < |c| ==> InClass(c[i], k)
    ensures Squeeze(a + r + c, k) == Squeeze(r, k)
  {
    SqueezeAppend(a + r, c, k);
    SqueezeAppend(a, r, k);
    SqueezeAllIn(a, k);
    SqueezeAllIn(c, k);
  }

  lemma SplitThree(s: string, i: int, j: int)
    requires 0 <= i <= j <= |s|
    ensures s == s[..i] + s[i..j] + s[j..]
  {
  }

  /** Trimming a non-blank piece padded with white space gives back the piece. */
  lemma TrimPadded(a: string, b: string, c: string)
    requires AllSpace(a) && AllSpace(c)
    requires b != [] && NoOuterSpace(b)
    ensures Trim(a + b + c) == b
  {
    var s := a + b + c;
    assert s[|a|] == b[0] && s[|a| + |b| - 1] == b[|b| - 1];
    assert forall k :: 0 <= k < |a| ==> s[k] == a[k];
    assert forall k :: |a| + |b| <= k < |s| ==> s[k] == c[k - |a| - |b|];
    assert LeadingSpace(s) == |a| && TrailingSpace(s) == |a| + |b|;
    assert s[|a|..|a| + |b|] == b;
  }

  /** Trailing white space alone is trimmed off. */
  lemma TrimTrailing(b: string, c: string)
    requires AllSpace(c) && b != [] && NoOuterSpace(b)
    ensures Trim(b + c) == b
  {
    assert [] + b + c == b + c;
    TrimPadded([], b, c);
  }

  /** No character of `s` is in class `k`. */
  predicate OutsideClass(s: string, k: CharClass) {
    forall i :: 0 <= i < |s| ==> !InClass(s[i], k)
  }

  /** A word with no class characters is not rewritten. */
  lemma {:induction false} RunsWord(w: string, k: CharClass, rep: char)
    requires OutsideClass(w, k)
    ensures Runs(w, k, rep, false) == w
  {
    if w != [] {
      RunsWord(w[1..], k, rep);
    }
  }

  /** A non-empty run of class characters becomes one `rep`, and the word after it
      is rewritten on its own. */
  lemma {:induction false} RunsGap(g: string, rest: string, k: CharClass, rep: char, inRun: bool)
    requires g != [] && forall i :: 0 <= i < |g| ==> InClass(g[i], k)
    requires rest == [] || !InClass(rest[0], k)
    ensures Runs(g + rest, k, rep, inRun) == (if inRun then [] else [rep]) + Runs(rest, k, rep, false)
    decreases |g|
  {
    assert g + rest == [g[0]] + (g[1..] + rest);
    RunsCons(g[0], g[1..] + rest, k, rep, inRun);
    if |g| == 1 {
      assert g[1..] + rest == rest;
      if rest != [] {
        assert rest == [rest[0]] + rest[1..];
        RunsCons(rest[0], rest[1..], k, rep, true);
        RunsCons(rest[0], rest[1..], k, rep, false);
      }
    } else {
      RunsGap(g[1..], rest, k, rep, true);
    }
  }

  /** `ReplaceRuns` up to the first class-`k` character at `j`: the characters
      before it are kept and the run it starts becomes one `rep`. */
  lemma ReplaceRunsSplit(f: string, j: int, k: CharClass, rep: char)
    requires 0 <= j <= |f| && OutsideClass(f[..j], k)
    requires j < |f| ==> InClass(f[j], k)
    ensures ReplaceRuns(f, k, rep)
         == f[..j] + (if j == |f| then [] else [rep] + Runs(f[j + 1..], k, rep, true))
  {
    assert f == f[..j] + f[j..];
    RunsAppend(f[..j], f[j..], k, rep, false);
    assert j > 0 ==> f[..j][j - 1] == f[j - 1];
    RunsWord(f[..j], k, rep);
    if j < |f| {
      assert f[j..] == [f[j]] + f[j + 1..];
      RunsCons(f[j], f[j + 1..], k, rep, false);
    }
  }

  /** `ReplaceRuns` on a word, a gap and the rest: the word is kept, the gap
      becomes one `rep`. */
  lemma ReplaceRunsStep(w: string, g: string, rest: string, k: CharClass, rep: char)
    requires w != [] && OutsideClass(w, k)
    requires g != [] && forall i :: 0 <= i < |g| ==> InClass(g[i], k)
    requires rest == [] || !InClass(rest[0], k)
    ensures ReplaceRuns(w + g + rest, k, rep) == w + [rep] + ReplaceRuns(rest, k, rep)
  {
    assert w + g + rest == w + (g + rest);
    RunsAppend(w, g + rest, k, rep, false);
    RunsWord(w, k, rep);
    RunsGap(g, rest, k, rep, false);
  }
}

=== FILE: titles.dfy ===
/** `cleanTitle` of content.js: the normalisation that turns a scraped title
    into the key used both for the rating cache and for the OMDb query. */
module Titles {
  import opened Wrappers
  import opened Text

  /** A year marker `(dddd)`, the regular expression `\(\d{4}\)`, starts at `i`. */
  predicate YearAt(s: string, i: int) {
    && 0 <= i && i + 6 <= |s|
    && s[i] == '(' && IsDigit(s[i + 1]) && IsDigit(s[i + 2])
    && IsDigit(s[i + 3]) && IsDigit(s[i + 4]) && s[i + 5] == ')'
  }

  predicate HasYear(s: string) {
    exists i | 0 <= i < |s| :: YearAt(s, i)
  }

  /** The leftmost year marker starts at `i`: the match a non-global `replace` removes. */
  predicate FirstYearAt(s: string, i: int) {
    YearAt(s, i) && forall j :: 0 <= j < i ==> !YearAt(s, j)
  }

  /** The position of the first year marker at or after `from`. */
  function FindYearFrom(s: string, from: nat): (r: Option<nat>)
    requires from <= |s|
    ensures r.Some? ==> from <= r.value && YearAt(s, r.value)
    ensures r.Some? ==> forall j :: from <= j < r.value ==> !YearAt(s, j)
    ensures r.None? <==> forall j :: from <= j ==> !YearAt(s, j)
    decreases |s| - from
  {
    if from + 6 > |s| then None
    else if YearAt(s, from) then Some(from)
    else FindYearFrom(s, from + 1)
  }

  /** `s.replace(/\(\d{4}\)/, '')`: only the leftmost year marker is cut out,
      and a string without one is returned unchanged. */
  function RemoveFirstYear(s: string): (r: string)
    ensures !HasYear(s) ==> r == s
    ensures forall i :: FirstYearAt(s, i) ==> r == s[..i] + s[i + 6..]
    ensures HasYear(s) ==> |r| == |s| - 6
  {
    match FindYearFrom(s, 0)
    case None => s
    case Some(i) =>
      assert FirstYearAt(s, i);
      s[..i] + s[i + 6..]
  }

  /** A year marker in `s[1..]` is one in `s`, one place further on. */
  lemma YearShift(s: string)
    requires s != []
    ensures forall j :: 0 <= j < |s| - 1 ==> (YearAt(s[1..], j) <==> YearAt(s, j + 1))
  {
  }

  /** One step of `RemoveFirstYear`: a marker at the head is cut out;
      otherwise the head is kept and the marker is looked for in the rest. */
  lemma RemoveFirstYearCons(s: string)
    requires s != []
    ensures RemoveFirstYear(s) == if YearAt(s, 0) then s[6..] else [s[0]] + RemoveFirstYear(s[1..])
  {
    if YearAt(s, 0) {
      assert FirstYearAt(s, 0);
      assert s[..0] + s[6..] == s[6..];
    } else if HasYear(s[1..]) {
      FirstYearShifted(s);
    } else {
      NoYearShifted(s);
    }
  }

  lemma FirstYearShifted(s: string)
    requires s != [] && !YearAt(s, 0) && HasYear(s[1..])
    ensures RemoveFirstYear(s) == [s[0]] + RemoveFirstYear(s[1..])
  {
    var t := s[1..];
    var i := FindYearFrom(t, 0).value;
    FirstYearMoves(s, i);
    var r := RemoveFirstYear(t);
    assert r == t[..i] + t[i + 6..];
    assert s[..i + 1] + s[i + 7..] == [s[0]] + r;
  }

  /** The first marker of `s[1..]` is the first of `s` when none starts at 0. */
  lemma FirstYearMoves(s: string, i: nat)
    requires s != [] && !YearAt(s, 0) && FirstYearAt(s[1..], i)
    ensures FirstYearAt(s, i + 1)
  {
    var t := s[1..];
    YearShift(s);
    forall j | 0 <= j < i + 1 ensures !YearAt(s, j) {
      if j > 0 {
        assert !YearAt(t, j - 1);
      }
    }
  }

  lemma NoYearShifted(s: string)
    requires s != [] && !YearAt(s, 0) && !HasYear(s[1..])
    ensures RemoveFirstYear(s) == [s[0]] + RemoveFirstYear(s[1..])
  {
    var t := s[1..];
    YearShift(s);
    forall j | 0 <= j < |s| ensures !YearAt(s, j) {
      if j > 0 {
        assert !YearAt(t, j - 1);
      }
    }
    assert s == [s[0]] + t;
  }

  /** A marker cannot start in white space, so white space in front of a string
      is kept as it is. */
  lemma {:induction false} RemoveFirstYearAfterSpace(a: string, x: string)
    requires AllSpace(a)
    ensures RemoveFirstYear(a + x) == a + RemoveFirstYear(x)
    decreases |a|
  {
    if a == [] {
      assert a + x == x;
    } else {
      var s := a + x;
      var rest := a[1..] + x;
      assert s[0] == a[0] && s[1..] == rest;
      RemoveFirstYearCons(s);
      assert RemoveFirstYear(s) == [a[0]] + RemoveFirstYear(rest);
      RemoveFirstYearAfterSpace(a[1..], x);
      ConsAssoc(a, RemoveFirstYear(x));
    }
  }

  lemma ConsAssoc(a: string, y: string)
    requires a != []
    ensures [a[0]] + (a[1..] + y) == a + y
  {
  }

  /** A string of white space holds no year marker. */
  lemma NoYearInSpace(c: string)
    requires AllSpace(c)
    ensures RemoveFirstYear(c) == c
  {
    forall j | 0 <= j < |c| ensures !YearAt(c, j) {
      assert IsSpace(c[j]);
    }
  }

  /** A marker at the head of `m + c` lies inside `m` when `c` is white space. */
  lemma YearBeforeSpace(m: string, c: string)
    requires AllSpace(c) && YearAt(m + c, 0)
    ensures |m| >= 6 && YearAt(m, 0) && (m + c)[6..] == m[6..] + c
  {
    var s := m + c;
    assert forall k :: |m| <= k < |s| ==> s[k] == c[k - |m|];
    assert !IsSpace(s[5]) && |m| >= 6;
    assert forall k :: 0 <= k < 6 ==> s[k] == m[k];
  }

  /** A marker holds no white space, so none overlaps white space after a
      string, and that white space is kept as it is. */
  lemma {:induction false} RemoveFirstYearBeforeSpace(m: string, c: string)
    requires AllSpace(c)
    ensures RemoveFirstYear(m + c) == RemoveFirstYear(m) + c
    decreases |m|
  {
    var s := m + c;
    if m == [] {
      assert s == c;
      NoYearInSpace(c);
    } else {
      assert s[0] == m[0] && s[1..] == m[1..] + c;
      RemoveFirstYearCons(s);
      RemoveFirstYearCons(m);
      if YearAt(s, 0) {
        YearBeforeSpace(m, c);
      } else {
        assert !YearAt(m, 0) by {
          if |m| >= 6 {
            assert forall k :: 0 <= k < 6 ==> s[k] == m[k];
          }
        }
        RemoveFirstYearBeforeSpace(m[1..], c);
        ConcatAssoc([m[0]], RemoveFirstYear(m[1..]), c);
      }
    }
  }

  /** A string is its trimmed piece between two stretches of white space. */
  lemma TrimSplit(s: string) returns (a: string, c: string)
    ensures AllSpace(a) && AllSpace(c) && s == a + (Trim(s) + c)
  {
    var r := Trim(s);
    var i := LeadingSpace(s);
    assert CutFrom(r, s, i);
    a, c := CutAround(r, s, i);
  }

  /** The pieces of `s` around a piece cut from it. */
  lemma CutAround(r: string, s: string, i: int) returns (a: string, c: string)
    requires CutFrom(r, s, i)
    ensures AllSpace(a) && AllSpace(c) && s == a + (r + c)
  {
    var j := i + |r|;
    a, c := s[..i], s[j..];
    SplitThree(s, i, j);
    ConcatAssoc(a, r, c);
    forall k | 0 <= k < |a| ensures IsSpace(a[k]) {
      assert a[k] == s[k];
    }
    forall k | 0 <= k < |c| ensures IsSpace(c[k]) {
      assert c[k] == s[j + k];
    }
  }

  /** Trimming moves no year marker: after cutting the first one, trimmed and
      untrimmed strings differ only in white space. */
  lemma RemoveFirstYearTrim(s: string)
    ensures Squeeze(RemoveFirstYear(Trim(s)), Whitespace) == Squeeze(RemoveFirstYear(s), Whitespace)
  {
    var r := Trim(s);
    var a, c := TrimSplit(s);
    RemoveFirstYearBeforeSpace(r, c);
    RemoveFirstYearAfterSpace(a, r + c);
    ConcatAssoc(a, RemoveFirstYear(r), c);
    SqueezeAround(a, RemoveFirstYear(r), c, Whitespace);
  }

  /** The characters other than white space that a collapse starts with are
      the ones the string starts with. */
  lemma {:induction false} RunsKeepsHead(t: string, n: nat)
    requires n <= |Runs(t, Whitespace, ' ', false)|
    requires forall k :: 0 <= k < n ==> !IsSpace(Runs(t, Whitespace, ' ', false)[k])
    ensures n <= |t| && forall k :: 0 <= k < n ==> Runs(t, Whitespace, ' ', false)[k] == t[k]
    decreases n
  {
    if n > 0 {
      var r := Runs(t, Whitespace, ' ', false);
      assert !IsSpace(t[0]);
      assert t == [t[0]] + t[1..];
      RunsCons(t[0], t[1..], Whitespace, ' ', false);
      var tail := Runs(t[1..], Whitespace, ' ', false);
      assert forall k :: 0 <= k < n - 1 ==> tail[k] == r[k + 1];
      RunsKeepsHead(t[1..], n - 1);
    }
  }

  /** Collapsing white space moves no year marker: after cutting the first one,
      collapsed and uncollapsed strings differ only in white space. */
  lemma {:induction false} RemoveFirstYearRuns(s: string, inRun: bool)
    ensures Squeeze(RemoveFirstYear(Runs(s, Whitespace, ' ', inRun)), Whitespace)
         == Squeeze(RemoveFirstYear(s), Whitespace)
    decreases |s|
  {
    if s != [] {
      if IsSpace(s[0]) {
        RemoveFirstYearRuns(s[1..], true);
        RunsSpaceStep(s, inRun);
      } else if YearAt(s, 0) {
        RunsYearStep(s);
      } else {
        RemoveFirstYearRuns(s[1..], false);
        RunsWordStep(s);
      }
    }
  }

  /** The step of `RemoveFirstYearRuns` for a leading white-space character. */
  lemma RunsSpaceStep(s: string, inRun: bool)
    requires s != [] && IsSpace(s[0])
    requires Squeeze(RemoveFirstYear(Runs(s[1..], Whitespace, ' ', true)), Whitespace)
          == Squeeze(RemoveFirstYear(s[1..]), Whitespace)
    ensures Squeeze(RemoveFirstYear(Runs(s, Whitespace, ' ', inRun)), Whitespace)
         == Squeeze(RemoveFirstYear(s), Whitespace)
  {
    var r := Runs(s, Whitespace, ' ', inRun);
    var rest := Runs(s[1..], Whitespace, ' ', true);
    assert s == [s[0]] + s[1..];
    RunsCons(s[0], s[1..], Whitespace, ' ', inRun);
    RemoveFirstYearCons(s);
    SqueezeCons(s[0], RemoveFirstYear(s[1..]), Whitespace);
    if !inRun {
      assert r == [' '] + rest && r[1..] == rest;
      RemoveFirstYearCons(r);
      SqueezeCons(' ', RemoveFirstYear(rest), Whitespace);
    }
  }

  /** The step of `RemoveFirstYearRuns` for a string that starts with a marker. */
  lemma RunsYearStep(s: string)
    requires s != [] && !IsSpace(s[0]) && YearAt(s, 0)
    ensures Squeeze(RemoveFirstYear(Runs(s, Whitespace, ' ', false)), Whitespace)
         == Squeeze(RemoveFirstYear(s), Whitespace)
    ensures Squeeze(RemoveFirstYear(Runs(s, Whitespace, ' ', true)), Whitespace)
         == Squeeze(RemoveFirstYear(s), Whitespace)
  {
    var r := Runs(s, Whitespace, ' ', false);
    assert s == [s[0]] + s[1..];
    RunsCons(s[0], s[1..], Whitespace, ' ', false);
    RunsCons(s[0], s[1..], Whitespace, ' ', true);
    assert Runs(s, Whitespace, ' ', true) == r;
    RemoveFirstYearCons(s);
    RemoveFirstYearCons(r);
    YearHead(s, r);
    RunsSqueeze(s[6..], Whitespace, Whitespace, ' ', false);
  }

  /** The step of `RemoveFirstYearRuns` for a leading character that is neither
      white space nor the start of a marker. */
  lemma RunsWordStep(s: string)
    requires s != [] && !IsSpace(s[0]) && !YearAt(s, 0)
    requires Squeeze(RemoveFirstYear(Runs(s[1..], Whitespace, ' ', false)), Whitespace)
          == Squeeze(RemoveFirstYear(s[1..]), Whitespace)
    ensures Squeeze(RemoveFirstYear(Runs(s, Whitespace, ' ', false)), Whitespace)
         == Squeeze(RemoveFirstYear(s), Whitespace)
    ensures Squeeze(RemoveFirstYear(Runs(s, Whitespace, ' ', true)), Whitespace)
         == Squeeze(RemoveFirstYear(s), Whitespace)
  {
    var r := Runs(s, Whitespace, ' ', false);
    var rest := Runs(s[1..], Whitespace, ' ', false);
    assert s == [s[0]] + s[1..];
    RunsCons(s[0], s[1..], Whitespace, ' ', false);
    RunsCons(s[0], s[1..], Whitespace, ' ', true);
    assert Runs(s, Whitespace, ' ', true) == r;
    RemoveFirstYearCons(s);
    RemoveFirstYearCons(r);
    YearOnlyFromYear(s);
    SqueezeCons(s[0], RemoveFirstYear(rest), Whitespace);
    SqueezeCons(s[0], RemoveFirstYear(s[1..]), Whitespace);
  }

  /** A collapse starts with a year marker only when the string does. */
  lemma YearOnlyFromYear(s: string)
    ensures YearAt(Runs(s, Whitespace, ' ', false), 0) ==> YearAt(s, 0)
  {
    var r := Runs(s, Whitespace, ' ', false);
    if YearAt(r, 0) {
      assert forall k :: 0 <= k < 6 ==> !IsSpace(r[k]);
      RunsKeepsHead(s, 6);
    }
  }

  /** A collapse keeps a year marker at the head and collapses what follows it. */
  lemma YearHead(s: string, r: string)
    requires YearAt(s, 0) && r == Runs(s, Whitespace, ' ', false)
    ensures YearAt(r, 0) && r[6..] == Runs(s[6..], Whitespace, ' ', false)
  {
    var m := s[..6];
    assert s == m + s[6..] && m[5] == ')';
    YearOutside(m);
    RunsAppend(m, s[6..], Whitespace, ' ', false);
    RunsWord(m, Whitespace, ' ');
  }

  /** Cleaning a title loses nothing but white space and its leftmost year
      marker: trimming and collapsing white space neither create a marker nor
      move one, because a marker holds no white space.  So `"(1982) Alien"`,
      `"Alien(1979)"` and `"A (1999) (2000)"` all keep every other character,
      the last one its second marker. */
  lemma CleanTitleLosesOnlyYear(title: string)
    ensures Squeeze(CleanTitle(title), Whitespace) == Squeeze(RemoveFirstYear(title), Whitespace)
    ensures !HasYear(title) ==> Squeeze(CleanTitle(title), Whitespace) == Squeeze(title, Whitespace)
    ensures forall i :: FirstYearAt(title, i) ==>
              Squeeze(CleanTitle(title), Whitespace) == Squeeze(title[..i], Whitespace) + Squeeze(title[i + 6..], Whitespace)
  {
    var t := Trim(title);
    var y := RemoveFirstYear(Collapse(t));
    TrimSqueeze(y);
    RemoveFirstYearRuns(t, false);
    RemoveFirstYearTrim(title);
    forall i | FirstYearAt(title, i)
      ensures Squeeze(CleanTitle(title), Whitespace) == Squeeze(title[..i], Whitespace) + Squeeze(title[i + 6..], Whitespace)
    {
      SqueezeAppend(title[..i], title[i + 6..], Whitespace);
    }
  }

  /** Every white-space character of `s` is a plain space. */
  predicate OnlyBlanks(s: string) {
    forall i :: 0 <= i < |s| && IsSpace(s[i]) ==> s[i] == ' '
  }

  /** The whitespace-collapsing step of `cleanTitle`, applied to the trimmed title. */
  function Collapse(s: string): string {
    ReplaceRuns(s, Whitespace, ' ')
  }

  lemma RemoveFirstYearKeepsBlanks(s: string)
    requires OnlyBlanks(s)
    ensures OnlyBlanks(RemoveFirstYear(s))
  {
    if HasYear(s) {
      var i := FindYearFrom(s, 0).value;
      assert FirstYearAt(s, i);
      var r := s[..i] + s[i + 6..];
      forall j | 0 <= j < |r| ensures IsSpace(r[j]) ==> r[j] == ' ' {
        if j < i { assert r[j] == s[j]; } else { assert r[j] == s[j + 6]; }
      }
    }
  }

  lemma TrimKeepsBlanks(s: string)
    requires OnlyBlanks(s)
    ensures OnlyBlanks(Trim(s))
  {
    var r := Trim(s);
    var i := LeadingSpace(s);
    forall j | 0 <= j < |r| ensures IsSpace(r[j]) ==> r[j] == ' ' {
      assert r[j] == s[i + j];
    }
  }

  /** `cleanTitle`: trim, collapse white-space runs to one space, cut out the first
      `(dddd)`, trim again.  The key it yields has no white space at either end,
      and every white-space character left inside it is a plain space. */
  function CleanTitle(title: string): (r: string)
    ensures NoOuterSpace(r)
    ensures OnlyBlanks(r)
    ensures |r| <= |title|
  {
    var c := Collapse(Trim(title));
    var y := RemoveFirstYear(c);
    RemoveFirstYearKeepsBlanks(c);
    TrimKeepsBlanks(y);
    Trim(y)
  }

  /** Collapsing a trimmed string keeps both of its ends. */
  lemma CollapseTrimmed(s: string)
    requires NoOuterSpace(s)
    ensures NoOuterSpace(Collapse(s))
  {
    if s != [] {
      ReplaceRunsLast(s, Whitespace, ' ');
    }
  }

  /** When the collapsed title holds no year marker, cleaning only changes white
      space, and cleaning the result again changes nothing. */
  lemma CleanTitleWithoutYear(title: string)
    requires !HasYear(Collapse(Trim(title)))
    ensures CleanTitle(title) == Collapse(Trim(title))
    ensures CleanTitle(CleanTitle(title)) == CleanTitle(title)
    ensures Squeeze(CleanTitle(title), Whitespace) == Squeeze(title, Whitespace)
  {
    var s := Trim(title);
    var c := Collapse(s);
    CollapseTrimmed(s);
    TrimOfTrimmed(c);
    assert CleanTitle(title) == c;
    ReplaceRunsIdentity(c, Whitespace, ' ');
    assert CleanTitle(c) == c;
    RunsSqueeze(s, Whitespace, Whitespace, ' ', false);
    TrimSqueeze(title);
  }

  /** Positions `p` and `p + 1` of `s` both hold white space. */
  predicate SpacePair(s: string, p: int) {
    0 <= p < |s| - 1 && IsSpace(s[p]) && IsSpace(s[p + 1])
  }

  /** Every pair of neighbouring white-space characters of `s` starts at `p`. */
  ghost predicate PairsOnlyAt(s: string, p: int) {
    forall q :: SpacePair(s, q) ==> q == p
  }

  /** Cutting the first marker out of a string with no neighbouring white space
      can bring two white-space characters together only across the cut. */
  lemma RemoveFirstYearJoins(c: string)
    requires NoAdjacent(c, Whitespace)
    ensures !HasYear(c) ==> PairsOnlyAt(RemoveFirstYear(c), -1)
    ensures forall i :: FirstYearAt(c, i) ==> PairsOnlyAt(RemoveFirstYear(c), i - 1)
  {
    var y := RemoveFirstYear(c);
    if !HasYear(c) {
      forall q | 0 <= q < |y| - 1 ensures !SpacePair(y, q) {
        assert !(InClass(c[q], Whitespace) && InClass(c[q + 1], Whitespace));
      }
    } else {
      var i := FindYearFrom(c, 0).value;
      assert FirstYearAt(c, i);
      forall q | 0 <= q < |y| - 1 && q + 1 != i ensures !SpacePair(y, q) {
        if q + 1 < i {
          assert y[q] == c[q] && y[q + 1] == c[q + 1];
          assert !(InClass(c[q], Whitespace) && InClass(c[q + 1], Whitespace));
        } else {
          assert y[q] == c[q + 6] && y[q + 1] == c[q + 7];
          assert !(InClass(c[q + 6], Whitespace) && InClass(c[q + 7], Whitespace));
        }
      }
      forall j | FirstYearAt(c, j) ensures j == i {
        assert !(j < i) && !(i < j);
      }
    }
  }

  /** A pair of neighbouring white-space characters of a slice is one of the whole. */
  lemma CutKeepsPairs(r: string, s: string, from: int, p: int)
    requires CutFrom(r, s, from)
    requires PairsOnlyAt(s, p)
    ensures PairsOnlyAt(r, p - from)
  {
    forall q | SpacePair(r, q) ensures q == p - from {
      assert r[q] == s[from + q] && r[q + 1] == s[from + q + 1];
      assert SpacePair(s, from + q);
    }
  }

  /** `cleanTitle` leaves at most one pair of neighbouring white-space
      characters, for every title: collapsing leaves none, and the one cut
      that removes the marker can join two blanks only where the marker was. */
  lemma CleanTitleSingleSpaced(title: string)
    ensures forall p, q :: SpacePair(CleanTitle(title), p) && SpacePair(CleanTitle(title), q) ==> p == q
    ensures !HasYear(Collapse(Trim(title))) ==> forall p :: !SpacePair(CleanTitle(title), p)
  {
    var c := Collapse(Trim(title));
    var y := RemoveFirstYear(c);
    var r := CleanTitle(title);
    assert r == Trim(y);
    RemoveFirstYearJoins(c);
    var at := if HasYear(c) then FindYearFrom(c, 0).value - 1 else -1;
    if HasYear(c) {
      assert FirstYearAt(c, FindYearFrom(c, 0).value);
    }
    assert PairsOnlyAt(y, at);
    CutKeepsPairs(r, y, LeadingSpace(y), at);
    if !HasYear(c) {
      forall p | 0 <= p ensures !SpacePair(r, p) {
        assert p != -1 - LeadingSpace(y);
      }
    }
  }

  /** A string of words separated by single spaces, with no year marker. */
  predicate PlainWords(w: string) {
    && w != [] && NoOuterSpace(w) && OnlyBlanks(w)
    && NoAdjacent(w, Whitespace) && !HasYear(w)
  }

  /** A year marker placed right after a space is the first one, when the text
      before that space holds none. */
  lemma YearAfterSpace(w: string, year: string, rest: string)
    requires !HasYear(w) && |year| == 6 && YearAt(year, 0)
    ensures FirstYearAt(w + " " + year + rest, |w| + 1)
  {
    var c := w + " " + year + rest;
    assert forall k :: 0 <= k < 6 ==> year[k] == c[|w| + 1 + k];
    forall j | 0 <= j < |w| + 1
      ensures !YearAt(c, j)
    {
      if j + 6 <= |w| {
        assert forall k :: j <= k < j + 6 ==> c[k] == w[k];
        assert !YearAt(w, j);
      } else {
        assert c[|w|] == ' ';
      }
    }
  }

  /** A year marker holds no white space. */
  lemma YearOutside(year: string)
    requires |year| == 6 && YearAt(year, 0)
    ensures OutsideClass(year, Whitespace)
  {
    forall k | 0 <= k < 6 ensures !IsSpace(year[k]) {
      assert year[k] == '(' || IsDigit(year[k]) || year[k] == ')';
    }
  }

  /** Collapsing plain words followed by a white-space gap: the gap becomes
      one space, and what follows it is collapsed on its own. */
  lemma CollapseAfterWords(words: string, gap: string, rest: string)
    requires PlainWords(words) && gap != [] && AllSpace(gap)
    requires rest == [] || !IsSpace(rest[0])
    ensures Collapse(words + gap + rest) == words + " " + Collapse(rest)
  {
    assert words + gap + rest == words + (gap + rest);
    RunsAppend(words, gap + rest, Whitespace, ' ', false);
    RunsIdentity(words, Whitespace, ' ', false);
    RunsGap(gap, rest, Whitespace, ' ', false);
  }

  /** Joining two strings without year markers by one space makes none: every
      window across the join holds the space. */
  lemma NoYearAcrossSpace(a: string, b: string)
    requires !HasYear(a) && !HasYear(b)
    ensures !HasYear(a + " " + b)
  {
    var c := a + " " + b;
    forall j | 0 <= j < |c|
      ensures !YearAt(c, j)
    {
      if j + 6 <= |a| {
        assert forall k :: j <= k < j + 6 ==> c[k] == a[k];
        assert !YearAt(a, j);
      } else if j > |a| {
        assert forall k :: j <= k < |c| ==> c[k] == b[k - |a| - 1];
        assert !YearAt(b, j - |a| - 1);
      } else {
        assert c[|a|] == ' ';
      }
    }
  }

  /** Cutting a year marker that follows plain words and a space. */
  lemma CutYearAfterWords(words: string, year: string, rest: string)
    requires !HasYear(words) && |year| == 6 && YearAt(year, 0)
    ensures RemoveFirstYear(words + " " + year + rest) == words + " " + rest
  {
    var c := words + " " + year + rest;
    YearAfterSpace(words, year, rest);
    assert c[..|words| + 1] == words + " ";
    assert c[|words| + 7..] == rest;
  }

  /** Cutting a year marker that ends the string, after plain words and a space. */
  lemma CutTrailingYear(words: string, year: string)
    requires !HasYear(words) && |year| == 6 && YearAt(year, 0)
    ensures RemoveFirstYear(words + " " + year) == words + " "
  {
    CutYearAfterWords(words, year, []);
    assert words + " " + year + [] == words + " " + year;
    assert words + " " + [] == words + " ";
  }

  /** `CleanTitle` is the composition of its four steps. */
  lemma CleanTitleSteps(title: string, t: string, c: string, y: string, r: string)
    requires Trim(title) == t && Collapse(t) == c
    requires RemoveFirstYear(c) == y && Trim(y) == r
    ensures CleanTitle(title) == r
  {
  }

  /** A title made of plain words, padded with white space and ending in a year
      marker after some white space, cleans to exactly its words: the comment
      above `cleanTitle` gives `"  The Thing   (1982) "` becoming `"The Thing"`. */
  lemma CleanTitleTrailingYear(lead: string, words: string, gap: string, year: string, trail: string)
    requires AllSpace(lead) && AllSpace(trail) && gap != [] && AllSpace(gap)
    requires PlainWords(words)
    requires |year| == 6 && YearAt(year, 0)
    ensures CleanTitle(lead + words + gap + year + trail) == words
  {
    var body := words + gap + year;
    TrimAroundTrailingYear(lead, words, gap, year, trail);
    CleanTrailingYearBody(words, gap, year);
    CleanTitleSteps(lead + words + gap + year + trail, body, words + " " + year, words + " ", words);
  }

  /** Trimming the padded title leaves the words, the gap and the marker. */
  lemma TrimAroundTrailingYear(lead: string, words: string, gap: string, year: string, trail: string)
    requires AllSpace(lead) && AllSpace(trail) && gap != [] && AllSpace(gap)
    requires PlainWords(words)
    requires |year| == 6 && YearAt(year, 0)
    ensures Trim(lead + words + gap + year + trail) == words + gap + year
  {
    var body := words + gap + year;
    assert lead + words + gap + year + trail == lead + body + trail;
    assert body[|body| - 1] == ')';
    TrimPadded(lead, body, trail);
  }

  /** The last three steps of `cleanTitle` on the words, the gap and the marker. */
  lemma CleanTrailingYearBody(words: string, gap: string, year: string)
    requires gap != [] && AllSpace(gap)
    requires PlainWords(words)
    requires |year| == 6 && YearAt(year, 0)
    ensures Collapse(words + gap + year) == words + " " + year
    ensures RemoveFirstYear(words + " " + year) == words + " "
    ensures Trim(words + " ") == words
  {
    CollapseWordsYear(words, gap, year);
    CutTrailingYear(words, year);
    TrimTrailing(words, " ");
  }

  /** Collapsing plain words, a white-space gap and a year marker leaves one
      space before the marker. */
  lemma CollapseWordsYear(words: string, gap: string, year: string)
    requires PlainWords(words) && gap != [] && AllSpace(gap)
    requires |year| == 6 && YearAt(year, 0)
    ensures Collapse(words + gap + year) == words + " " + year
  {
    CollapseAfterWords(words, gap, year);
    YearOutside(year);
    RunsWord(year, Whitespace, ' ');
  }

  /** Plain words on both sides of a year marker, one space each side, are
      already collapsed. */
  lemma CollapseAroundYear(a: string, year: string, b: string)
    requires PlainWords(a) && PlainWords(b)
    requires |year| == 6 && YearAt(year, 0)
    ensures Collapse(a + " " + year + " " + b) == a + " " + year + " " + b
  {
    assert a + " " + year + " " + b == a + " " + (year + " " + b);
    CollapseAfterWords(a, " ", year + " " + b);
    YearOutside(year);
    ReplaceRunsStep(year, " ", b, Whitespace, ' ');
    ReplaceRunsIdentity(b, Whitespace, ' ');
  }

  lemma DoubleSpace(a: string, b: string)
    ensures a + " " + (" " + b) == a + "  " + b
  {
    assert a + " " + (" " + b) == a + (" " + " ") + b;
  }

  /** A year marker between two words leaves both of its surrounding spaces
      behind, so cleaning is not idempotent: a second cleaning collapses them
      (`CleanTitleAgain`). */
  lemma CleanTitleMiddleYear(a: string, year: string, b: string)
    requires PlainWords(a) && PlainWords(b)
    requires |year| == 6 && YearAt(year, 0)
    ensures CleanTitle(a + " " + year + " " + b) == a + "  " + b
  {
    var s := a + " " + year + " " + b;
    var y := a + "  " + b;
    MiddleYearTrimmed(a, year, b);
    MiddleYearCut(a, year, b);
    CleanTitleSteps(s, s, s, y, y);
  }

  /** The title with a year marker between two words has no outer white space
      and no run to collapse. */
  lemma MiddleYearTrimmed(a: string, year: string, b: string)
    requires PlainWords(a) && PlainWords(b)
    requires |year| == 6 && YearAt(year, 0)
    ensures Trim(a + " " + year + " " + b) == a + " " + year + " " + b
    ensures Collapse(a + " " + year + " " + b) == a + " " + year + " " + b
  {
    var s := a + " " + year + " " + b;
    assert s[0] == a[0] && s[|s| - 1] == b[|b| - 1];
    TrimOfTrimmed(s);
    CollapseAroundYear(a, year, b);
  }

  /** Cutting the marker joins the two spaces around it, and trimming keeps them. */
  lemma MiddleYearCut(a: string, year: string, b: string)
    requires PlainWords(a) && PlainWords(b)
    requires |year| == 6 && YearAt(year, 0)
    ensures RemoveFirstYear(a + " " + year + " " + b) == a + "  " + b
    ensures Trim(a + "  " + b) == a + "  " + b
  {
    assert a + " " + year + " " + b == a + " " + year + (" " + b);
    CutYearAfterWords(a, year, " " + b);
    var y := a + "  " + b;
    DoubleSpace(a, b);
    assert y[0] == a[0] && y[|y| - 1] == b[|b| - 1];
    TrimOfTrimmed(y);
  }

  /** The double space left by `CleanTitleMiddleYear` goes on a second cleaning. */
  lemma CleanTitleAgain(a: string, b: string)
    requires PlainWords(a) && PlainWords(b)
    ensures CleanTitle(a + "  " + b) == a + " " + b
  {
    var s := a + "  " + b;
    assert s[0] == a[0] && s[|s| - 1] == b[|b| - 1];
    TrimOfTrimmed(s);
    CollapseAfterWords(a, "  ", b);
    ReplaceRunsIdentity(b, Whitespace, ' ');
    NoYearAcrossSpace(a, b);
    var r := a + " " + b;
    assert r[0] == a[0] && r[|r| - 1] == b[|b| - 1];
    TrimOfTrimmed(r);
  }

  /** The example of the comment above `cleanTitle`: `"  The Thing   (1982) "`
      cleans to `"The Thing"`. */
  lemma TheThing(lead: string, words: string, gap: string, year: string, trail: string)
    requires lead == "  " && words == "The Thing" && gap == "   " && year == "(1982)" && trail == " "
    ensures CleanTitle(lead + words + gap + year + trail) == "The Thing"
  {
    TheThingWords(words);
    CleanTitleTrailingYear(lead, words, gap, year, trail);
  }

  lemma TheThingWords(words: string)
    requires words == "The Thing"
    ensures PlainWords(words)
  {
    assert forall i :: 0 <= i < |words| ==> words[i] != '(';
  }

  /** The example of a year between words: `"a (1982) b"` cleans to `"a  b"`,
      which cleans again to `"a b"`. */
  lemma MiddleYearExample(a: string, year: string, b: string)
    requires a == "a" && year == "(1982)" && b == "b"
    ensures CleanTitle(a + " " + year + " " + b) == a + "  " + b
    ensures CleanTitle(a + "  " + b) == a + " " + b
  {
    OneLetterWord(a);
    OneLetterWord(b);
    CleanTitleMiddleYear(a, year, b);
    CleanTitleAgain(a, b);
  }

  lemma OneLetterWord(w: string)
    requires |w| == 1 && 'a' <= w[0] <= 'z'
    ensures PlainWords(w)
  {
  }

  /** A title that is nothing but a year marker padded with white space cleans
      to the empty string, which the processing pass treats as no title. */
  lemma CleanTitleYearOnly(lead: string, year: string, trail: string)
    requires AllSpace(lead) && AllSpace(trail)
    requires |year| == 6 && YearAt(year, 0)
    ensures CleanTitle(lead + year + trail) == []
  {
    TrimPadded(lead, year, trail);
    YearOutside(year);
    RunsWord(year, Whitespace, ' ');
    assert FirstYearAt(year, 0);
    assert year[..0] + year[6..] == [];
    CleanTitleSteps(lead + year + trail, year, year, [], []);
  }
}

=== FILE: wrappers.dfy ===
/** The optional-value and outcome types the rest of the model uses wherever the
    script works with `null`, `undefined`, a missing match or a thrown error. */
module Wrappers {

  datatype Option<+T> = None | Some(value: T) {

    /** The wrapped value, or `default` when there is none. */
    function GetOr(default: T): T {
      match this
      case Some(v) => v
      case None => default
    }
  }

  /** A computation that either returns a value or throws an error. */
  datatype Result<+T, +E> = Success(value: T) | Failure(error: E)

  /** JavaScript truthiness of a string that may be `null` or `undefined`:
      present and not empty. */
  predicate Truthy(s: Option<string>) {
    s.Some? && s.value != ""
  }
}
